=== FILE: README.md ===
# 52 Projects — a Dafny model of the server routes and the page logic

The application tracks a "52 projects in 52 weeks" challenge. Users register
or sign in (locally or with GitHub) and submit one project per week. An admin
reviews the submissions, and users and the admin exchange chat messages with
optional file attachments.

This project models, as pure functions over an immutable store:

- the REST server (`server.mjs`): the bearer-token middleware, registration,
  local login, the GitHub sign-in after the code exchange, the project routes
  (list, create, update, delete), the chat routes (post, list, delete), and the
  seeding of the built-in admin;
- the three Mongoose schemas (`User.js`, `Project.ts`, `Chat.js`). Each is a
  validity predicate plus a constructor that applies the defaults and strict
  mode. Strict mode means undeclared paths are never stored;
- the page logic that decides what users see and what gets sent:
  - the dashboard and its 52-week grid;
  - the new-project form;
  - the chat component: the recipient list, the visibility filters, the inbox
    and chat tabs, composing a message, choosing a file, and file icons;
  - the admin page: loading, the three filters, the status counters,
    approve/reject, delete, and the CSV report.

Each route is a function `(Store, inputs) -> (Store, Reply)`. A `Reply` is
`Ok(code, body)` or `Fail(code, error)`, and every failing route leaves the
store unchanged. Fresh document ids, fresh tokens and the current time are
parameters. A duplicate key or a failed validation on save is a `500` with
an unmodelled error text.

`Scenarios` holds lemmas that span the server and the pages. Some show
behaviour the source does not evidently intend:

- Stored messages never keep `recipientId` or `isBroadcast`, because the chat
  schema does not declare them. As a result:
  - a user's inbox stays empty;
  - the admin's broadcast tab shows nothing fetched;
  - the page's own visibility filter drops nothing the server sends.
- The server takes `isAdmin` from the request body. A plain user can therefore
  post a message that every user receives as an admin message.
- A message with only a file is sent with empty content and refused with 500.
  The exception is an admin writing to one user: that message is prefixed with
  two spaces.
- The admin page loads `GET /api/projects`, which lists only the caller's own
  projects. Approving another user's project answers 404.
- The dashboard's delete drops every project of the week, although the server
  deleted one (see Findings).

The model follows the code where it differs from what the application's
screens and wording suggest:

- Status changes are not restricted to admins.
- Week uniqueness per user is not enforced anywhere.
- The admin page's delete is the same hard `DELETE` as the owner's. It is not
  a soft hide.
- The update route rejects a status outside the enumeration, because the
  update validators run.

## Model

| member | source | states |
|---|---|---|
| Common.Filter | src/pages/Admin.tsx:115-129 | `Array.filter`: keeps exactly the elements satisfying the predicate, no more elements than the input, and is the identity when every element satisfies it |
| Common.FilterFilter | src/pages/Admin.tsx:110-133 | two successive filters equal one filter by the conjunction |
| Common.FilterAppend | src/pages/Admin.tsx:110-133 | filtering distributes over concatenation |
| Common.CountSplit | src/pages/Admin.tsx:317-339 | counts under two exclusive predicates add up to the count under their disjunction |
| Common.FindFirst | src/components/WeekGrid.tsx:15-17 | `find`: the first index whose element satisfies the predicate; none exactly when no element does |
| Common.RemoveAtIsFilter | server.mjs:341-344 | removing the only element that fails a predicate is the same as filtering by that predicate |
| Common.FilterRemoveAtCount | server.mjs:341-344 | removing one element shortens a filtered view by one exactly when the element passes the filter |
| Common.FilterDropsTwo | src/pages/Dashboard.tsx:233 | filtering out two distinct positions shortens a sequence by at least two |
| Text.Trim | src/components/Chat.tsx:135 | `trim`: the input with only leading and trailing whitespace cut away, so the result sits between an all-whitespace prefix and an all-whitespace suffix; it has no whitespace at either end, and is empty exactly when the input is all whitespace |
| Text.TrimmedAtWitness | src/components/Chat.tsx:135 | trimming the start and then the end leaves the input's piece that starts where the leading whitespace stops, with only whitespace after it |
| Text.TrimEmptyIff | src/components/Chat.tsx:135 | trimming leaves nothing exactly when the text is all whitespace |
| Text.JoinSplit | src/pages/Admin.tsx:203-206 | joining the pieces of a split gives the original text back |
| Text.SplitJoin | src/pages/Admin.tsx:203-206 | splitting a join on a separator that no part contains gives the parts back |
| Text.FirstPieceOf | server.mjs:283 | `split('@')[0]` of `a@rest` is `a` when `a` has no `@`, and an address without `@` is its own first piece |
| Text.IntToString | src/pages/Admin.tsx:195 | the decimal text of an integer holds only digits and a leading minus sign |
| Text.ParseIntToString | src/pages/Admin.tsx:124 | `parseInt` of an integer's decimal text gives the integer back |
| Records.DisplayName | server.mjs:283 | the server's display name is the user's name when non-empty, otherwise the part of the email before its first `@` (a prefix without `@`, followed by `@` or the end of the address) |
| ClientSession.SessionName | src/pages/Dashboard.tsx:127 | `name \|\| login \|\| email`: the first non-empty one of the three, and empty only when all three are |
| Schema.NewUser | src/models/User.js:3-50 | role defaults to user and provider to local; the document is valid exactly when name and email are non-empty and a local account has a password |
| Schema.InsertUser | src/models/User.js:8-41 | a save succeeds exactly when the document is valid and clashes with no stored user on id, email, GitHub id or token; it appends and keeps the unique indexes |
| Schema.ReplaceUser | src/models/User.js:8-41 | re-saving a changed user succeeds exactly when it is valid and clashes with no other user; it replaces in place and keeps the unique indexes |
| Schema.TokenHolderUnique | src/models/User.js:37-41 | under the unique token index, at most one user holds a given token |
| Schema.NewProject | src/models/Project.ts:3-47 | every declared path present in the body is copied; status defaults to Not Started; url and isHidden are never stored; valid exactly when the required strings are non-empty, the week is within 1..52 and the status is in the enumeration |
| Schema.InsertProject | src/models/Project.ts:3-47 | a save succeeds exactly when the document is valid and its id is new; it appends and keeps ids unique |
| Schema.ApplyPatch | server.mjs:320-325 | `$set` keeps id, url and isHidden, and an update with no declared path changes nothing |
| Schema.PatchPreservesValidity | server.mjs:320-325 | a patch that passes the update validators keeps a valid project valid |
| Schema.NewMessage | src/models/Chat.js:3-37 | isAdmin defaults to false and the timestamp to the current time; recipient, broadcast flag and reply are never stored; valid exactly when sender id, sender name and content are non-empty |
| Schema.InsertMessage | src/models/Chat.js:3-37 | a save succeeds exactly when the message is valid and its id is new; it appends and keeps ids unique |
| Auth.BearerToken | server.mjs:83-92 | the token read from the header is non-empty and has no space; no header, or one with no space, yields none |
| Auth.BearerTokenOfShape | server.mjs:86 | a header made of a first field, one space, the token and optionally more space-separated text yields that token |
| Auth.BearerTokenShape | server.mjs:86 | a token is only ever read from a header of that shape |
| Auth.BearerHeaderToken | server.mjs:86 | the `Bearer <t>` header the pages send yields `t` |
| Auth.Authenticate | server.mjs:81-110 | 401 "Authentication required" exactly when no token can be read; "Invalid token" exactly when no user holds it; otherwise a stored user holding that token |
| Auth.AuthenticateHolder | server.mjs:96-104 | with unique tokens, the holder's token authenticates as that holder |
| Accounts.Register | server.mjs:224-233 | 201 exactly when the new user is valid and clashes with no one; the appended user has the given id, name, email and password, role user, provider local, and no token, GitHub id or avatar; failure is 500 and changes nothing |
| Accounts.RegisterThenLogin | server.mjs:224-261 | a freshly registered account logs in with its own email and password and is answered its id, name, email, role user and the new token |
| Accounts.LoginTarget | server.mjs:238-240 | the login account is the first user with the email, provided its password matches; none otherwise |
| Accounts.Login | server.mjs:235-261 | 401 "Invalid credentials" exactly when there is no login account; success exactly when there is one and re-saving it with the new token goes through; success replaces only that user's token and answers the user's id, name, email, `role \|\| 'user'` and the new token |
| Accounts.LoginRotatesToken | server.mjs:243-247 | after a login the new token authenticates as the user, and the user's previous token is refused as invalid |
| Accounts.PrimaryEmail | server.mjs:164-170 | the address of the first entry marked primary; none when no entry is primary or that first entry's address is empty |
| Accounts.PrimaryEmailAfterSecondaries | server.mjs:164 | entries not marked primary before the primary one are passed over, and entries after it do not matter |
| Accounts.Resolve | server.mjs:172-199 | matches by GitHub id first, then by email, else a new account; a new account exactly when neither matches |
| Accounts.ResolvedUser | server.mjs:172-203 | a GitHub-id match only gets the new token; an email match also gets the GitHub id, provider and avatar; a new account is built from the profile with role user |
| Accounts.GitHubSignIn | server.mjs:118-221 | succeeds exactly when there is a primary email and saving the resolved user goes through; otherwise 500 and no change; success saves the resolved user and answers its id, name, email and role with the new token |
| Accounts.GitHubSignInAuthenticates | server.mjs:201-216 | after a GitHub sign-in the answered token authenticates as the saved user |
| Accounts.SeedAdmin | server.mjs:59-78 | adds the built-in admin only when no user has its email, and otherwise changes nothing |
| Accounts.SeededAdminCanLogIn | server.mjs:59-78 | on a store without that email, the built-in credentials log in as a user with role admin |
| ProjectRoutes.FindOwned | server.mjs:304 | `findOne({_id, userId})`: the first project with that id owned by the caller; none exactly when no such project exists |
| ProjectRoutes.ListProjects | server.mjs:264-271 | 401 exactly when authentication fails; otherwise exactly the caller's projects |
| ProjectRoutes.ListProjectsInOrder | server.mjs:266 | the listing keeps the stored order |
| ProjectRoutes.CreateProject | server.mjs:273-291 | 201 exactly when the caller is authenticated, the body carries valid fields and the id is new; the project is appended with owner and display name taken from the caller, whatever the body says, and with title, description, tech stack, week, repository and status taken from the body |
| ProjectRoutes.CreateThenList | server.mjs:264-291 | a created project is listed for its creator afterwards |
| ProjectRoutes.CreatePreservesValidStore | server.mjs:273-291 | creation keeps every document valid and ids unique |
| ProjectRoutes.UpdateProject | server.mjs:293-337 | 400 for an id that is not an ObjectId; 404 when the caller owns no such project; success updates only that project, keeps owner, name and id, keeps the tech stack unless a non-empty one is sent, and takes every other sent field (title, description, week, status, repository) |
| ProjectRoutes.UpdatePreservesValidStore | server.mjs:293-337 | an update keeps every document valid and ids unique |
| ProjectRoutes.DeleteProject | server.mjs:339-352 | 500 for an id that is not an ObjectId; 404 when the caller owns no such project; success exactly when the caller is authenticated and owns a project with that id, and it removes that project and touches neither users nor messages |
| ProjectRoutes.DeleteRemovesExactly | server.mjs:341-344 | with unique ids, a delete removes exactly the project with that id and keeps the rest in order |
| ProjectRoutes.DeletePreservesValidStore | server.mjs:339-352 | a delete keeps the store valid |
| ChatRoutes.ChatData | server.mjs:357-370 | the sender id and name are overwritten by the caller's; an uploaded file overwrites the file fields with its `/uploads/` URL, name, type and size |
| ChatRoutes.PostMessage | server.mjs:355-378 | 201 exactly when the caller is authenticated, the content is non-empty and the id is new; the message is appended, stamped with the caller, keeps the body's content, isAdmin flag and timestamp, takes URL, name, type and size from the upload when there is one and the body's four file fields otherwise |
| ChatRoutes.PostPreservesValidStore | server.mjs:355-378 | posting keeps the store valid |
| ChatRoutes.InsertByTime | server.mjs:385 | insertion keeps a time-sorted list sorted and adds exactly the one message |
| ChatRoutes.SortByTime | server.mjs:385 | the sort by timestamp is a permutation of its input and is sorted |
| ChatRoutes.SortSorted | server.mjs:385 | sorting an already sorted list changes nothing |
| ChatRoutes.SortIdempotent | server.mjs:385 | sorting twice is sorting once |
| ChatRoutes.ListMessages | server.mjs:380-405 | 401 on failed authentication; an admin gets every message; a user gets exactly their own and admin messages; either way sorted by time |
| ChatRoutes.ListMessagesIsPermutation | server.mjs:388-393 | a user's listing holds each visible message as often as the store does |
| ChatRoutes.FindMessage | server.mjs:410 | `findById`: the first message with the id; none exactly when no message has it |
| ChatRoutes.DeleteMessage | server.mjs:408-427 | 404 for an unknown id; 403 when the caller is neither an admin nor the sender; success exactly when the caller is authenticated, the message exists and the caller is an admin or its sender, and it removes that message |
| ChatRoutes.DeleteMessageRemovesExactly | server.mjs:416-421 | with unique ids, a delete removes exactly that message, and only an admin or the sender gets there |
| ChatRoutes.DeleteMessagePreservesValidStore | server.mjs:408-427 | a delete keeps the store valid |
| ChatView.FirstSent | src/components/Chat.tsx:55 | the first message a sender sent; none exactly when they sent none |
| ChatView.DistinctSenders | src/components/Chat.tsx:53-60 | every sender appears once, in the order of their first message, named by that message's sender name or "Unknown User" |
| ChatView.FetchFilter | src/components/Chat.tsx:74-89 | an admin keeps everything; a user keeps their own messages, admin messages to everyone or to them, and non-admin messages to everyone; the list is unchanged when all of it qualifies |
| ChatView.FetchFilterInOrder | src/components/Chat.tsx:74-89 | the filter keeps the fetched order |
| ChatView.SelectFile | src/components/Chat.tsx:109-132 | a file over 10 MB is refused and the earlier selection stays; otherwise the file becomes the selection |
| ChatView.Compose | src/components/Chat.tsx:134-161 | nothing is sent without a session or with blank text and no file; the text is trimmed and prefixed with two spaces for a direct admin message; the recipient is set exactly for the admin's user view, the broadcast flag is always sent, true exactly for the admin's broadcast view; the four file fields come from the preview, and are absent without one |
| ChatView.Inbox | src/components/Chat.tsx:224-227 | empty for an admin; for a user, exactly the direct, non-broadcast admin messages addressed to them |
| ChatView.InboxInOrder | src/components/Chat.tsx:224-227 | the inbox keeps the list order |
| ChatView.ChatTab | src/components/Chat.tsx:230-248 | the admin's user view shows everything and the broadcast view only admin broadcasts; a user sees their own messages and admin messages tagged for them or untagged |
| ChatView.ChatTabInOrder | src/components/Chat.tsx:230-248 | the chat tab keeps the list order |
| ChatView.AfterDelete | src/components/Chat.tsx:270 | after a confirmed delete, exactly the messages with other ids remain, in order |
| ChatView.AfterDeleteCount | src/components/Chat.tsx:270 | exactly as many messages leave as carried the id |
| ChatView.IconFor | src/components/Chat.tsx:213-221 | image, video and audio prefixes win first, then pdf, word, then excel or sheet; the generic icon exactly when none applies |
| AdminView.ToRow | src/pages/Admin.tsx:84-96 | the defaults: an empty status reads as Not Started, an absent repository or URL as empty; the row is never hidden |
| AdminView.LoadRows | src/pages/Admin.tsx:83-96 | one row per non-hidden project, each defaulted, and every row comes from a non-hidden project |
| AdminView.LoadRowsInOrder | src/pages/Admin.tsx:83-96 | the rows keep the fetched order: row k is the defaulted k-th non-hidden project |
| AdminView.FilterRows | src/pages/Admin.tsx:110-133 | with no search term and both selectors on "all", every row is kept |
| AdminView.FilterRowsIsOneFilter | src/pages/Admin.tsx:110-133 | the three chained filters equal one filter by the conjunction of search, week and status |
| AdminView.FilterRowsSelects | src/pages/Admin.tsx:110-133 | a row is shown exactly when it matches the search, the week and the status selection |
| AdminView.FilterRowsInOrder | src/pages/Admin.tsx:110-133 | the filtered rows keep the loaded order |
| AdminView.StatusCountsSum | src/pages/Admin.tsx:307-339 | with every status in the enumeration, the Approved, Under Review and Not Started counters add up to the total |
| AdminView.Actions | src/pages/Admin.tsx:465-483 | Approve and Reject are offered exactly for projects under review, and they target Approved and Not Started |
| AdminView.RequestStatusChange | src/pages/Admin.tsx:135-160 | an id missing from the list triggers a reload; otherwise the PUT carries only the new status |
| AdminView.AfterStatusReply | src/pages/Admin.tsx:162-183 | a 404 drops the row, another error keeps the list, success replaces the rows with the returned id |
| AdminView.StatusReplyTouchesOnlyTarget | src/pages/Admin.tsx:179-183 | a successful status change leaves every other row as it was |
| AdminView.AfterDelete | src/pages/Admin.tsx:221-248 | after a successful delete, exactly the rows with other ids remain, in order; after a failure nothing changes |
| AdminView.CsvHeader | src/pages/Admin.tsx:193-204 | the header line holds no line break |
| AdminView.CsvLines | src/pages/Admin.tsx:203-206 | when no cell holds a line break, the report has the header and then one line per shown row, and line k+1 is row k's cells joined by commas |
| AdminView.CsvColumns | src/pages/Admin.tsx:194-205 | a row whose cells hold no comma reads back as exactly its six cells |
| AdminView.CsvCommaShiftsColumns | src/pages/Admin.tsx:194-205 | a comma in a title splits the line into seven columns, because cells are not quoted |
| ProjectForm.Submit | src/components/ProjectForm.tsx:25-42 | nothing happens when a field is empty; otherwise the three fields go to the page first and the form is cleared after |
| ProjectForm.Cancel | src/components/ProjectForm.tsx:44-50 | the form is cleared before the page is told |
| ProjectForm.HandlersReset | src/components/ProjectForm.tsx:25-50 | a submit that goes through, and any cancel, leave the form empty; a refused submit leaves it as it was |
| ProjectForm.SubmittedShape | src/components/ProjectForm.tsx:32-36 | what the form hands over has all three fields and never a repository or URL |
| WeekGrid.Weeks | src/components/WeekGrid.tsx:13 | the weeks 1 to 52 in increasing order |
| WeekGrid.WeeksCoverYear | src/components/WeekGrid.tsx:13 | a week has a tile exactly when it lies in 1..52 |
| WeekGrid.WeekProject | src/components/WeekGrid.tsx:15-17 | the first project of that week; none exactly when no project has it |
| WeekGrid.WeekStatus | src/components/WeekGrid.tsx:19-22 | a week with no project, or one with an empty status, reads as Not Started |
| WeekGrid.StatusColour | src/components/WeekGrid.tsx:24-35 | green exactly for Approved and yellow exactly for Under Review |
| WeekGrid.UnknownStatusColour | src/components/WeekGrid.tsx:30-33 | a status outside the enumeration is drawn like Not Started |
| WeekGrid.StatusIcon | src/components/WeekGrid.tsx:37-48 | a check for Approved, an hourglass for Under Review; for Not Started a plus exactly when no week is expanded; a plus for unknown statuses |
| WeekGrid.TileIcon | src/components/WeekGrid.tsx:72-80 | for Not Started the chevron shows exactly when this week is the expanded one |
| WeekGrid.RenderTile | src/components/WeekGrid.tsx:58-103 | the title and the delete button show exactly when the week has a project; an empty week is grey |
| WeekGrid.RenderGrid | src/components/WeekGrid.tsx:58-103 | 52 tiles, tile k for week k+1 |
| WeekGrid.DeleteClick | src/components/WeekGrid.tsx:50-55 | the week reaches the page's delete handler exactly when the page passed one |
| Dashboard.WeekClick | src/pages/Dashboard.tsx:82-95 | a week with a project opens the modal and collapses the grid; an empty week opens the form and expands that week |
| Dashboard.WeekClickTile | src/pages/Dashboard.tsx:82-95 | after clicking an empty week its tile shows the chevron and every other empty week shows a plus |
| Dashboard.FormSubmission | src/pages/Dashboard.tsx:118-128 | the form's fields, the expanded week, status Under Review, and the session's id and first non-empty name |
| Dashboard.ModalSubmission | src/pages/Dashboard.tsx:170-180 | the modal's fields, the fixed tech stack "React, Node.js", the selected week, status Under Review, and the session's id and first non-empty name |
| Dashboard.AfterFormCreated | src/pages/Dashboard.tsx:144-147 | the created project is appended and the form closes with no week expanded |
| Dashboard.AfterModalCreated | src/pages/Dashboard.tsx:199-201 | the created project is appended and the modal closes |
| Dashboard.FormCancel | src/pages/Dashboard.tsx:409-412 | cancelling closes the form and collapses the week |
| Dashboard.CreatedWeekHasProject | src/pages/Dashboard.tsx:82-147 | once the project is created, the week that was opened is no longer empty |
| Dashboard.DeleteRequest | src/pages/Dashboard.tsx:218-221 | the delete goes to the first project of the week, and no request is made when the week has none |
| Dashboard.AfterDeleteByWeek | src/pages/Dashboard.tsx:233 | after a successful delete, exactly the projects of other weeks remain, in order |
| Dashboard.DeleteByWeekDropsMore | src/pages/Dashboard.tsx:218-233 | when two projects share the week, the list loses at least two |
| Dashboard.AfterDeleteById | src/pages/Dashboard.tsx:221-233 | after a delete as evidently intended, exactly the projects with other ids remain, in order |
| Dashboard.Completed | src/pages/Dashboard.tsx:241 | the count of projects whose status is Approved, at most the number of projects; zero exactly when none is approved |
| Dashboard.CompletionRate | src/pages/Dashboard.tsx:242 | `Math.round(c / 52 * 100)` equals the integer quotient (100c + 26) / 52 |
| Dashboard.CompletionRateBounds | src/pages/Dashboard.tsx:242 | the percentage grows with the count, is 0 for none and 100 for all 52, and never exceeds 100 while at most 52 are approved |
| Scenarios.ListedMessagesUndirected | src/models/Chat.js:3-37 | a listed message has no recipient, no broadcast flag and no reply |
| Scenarios.FetchFilterKeepsServerListing | src/components/Chat.tsx:74-89 | the page's visibility filter drops nothing from a user's server listing |
| Scenarios.InboxAlwaysEmpty | src/components/Chat.tsx:224-227 | the inbox built from a server listing is always empty |
| Scenarios.BroadcastTabAlwaysEmpty | src/components/Chat.tsx:230-234 | the admin's broadcast tab built from a server listing is always empty |
| Scenarios.ForgedAdminMessage | server.mjs:357-371 | a plain user's message sent with isAdmin true is stored as an admin message, shows in every other listing, and offers the admin no reply button |
| Scenarios.DeleteButtonMatchesServer | src/components/Chat.tsx:428 | the page shows the delete button on a message exactly when the server's delete would succeed for that caller, and hides it exactly when the server would answer 403 |
| Scenarios.FileOnlyMessageRejected | src/components/Chat.tsx:134-161 | a file-only message outside the admin's direct view is refused with 500 and stores nothing |
| Scenarios.FileOnlyDirectMessageStored | src/components/Chat.tsx:144-146 | a file-only direct admin message is stored with content of two spaces |
| Scenarios.DashboardSubmitStored | src/pages/Dashboard.tsx:118-145 | a dashboard submit stores an Under Review project for that week, owned by the caller under the server's display name, and the week's tile finds it after the next load |
| Scenarios.DashboardSubmitNeedsWeek | src/pages/Dashboard.tsx:122 | a submit with no expanded week is refused |
| Scenarios.DeleteByWeekDiverges | src/pages/Dashboard.tsx:209-239 | when two of the user's projects share a week, the page shows fewer projects than the server still lists |
| Scenarios.DeleteByIdAgrees | src/pages/Dashboard.tsx:209-239 | dropping by the deleted id leaves the page equal to the server's listing |
| Scenarios.AdminRowsAreOwn | src/pages/Admin.tsx:60-96 | every row on the admin page belongs to the admin |
| Scenarios.HideFilterInert | src/pages/Admin.tsx:83 | the hide filter drops nothing the server sends |
| Scenarios.ApproveOthersProject | src/pages/Admin.tsx:135-167 | an admin's status change on another user's project is answered 404, and the page drops that row |

## Left out

- Network, storage and process I/O are not modelled: HTTP, MongoDB, the disk upload store, `localStorage`, toasts, navigation and polling. Only the values they carry are.
- The code-for-token exchange with GitHub and the two profile requests are left out. The profile and the email list are parameters of `Accounts.GitHubSignIn`.
- Token derivation (base64 of id and time) is left out; a fresh token is a parameter. Time is a parameter too, and the `createdAt`/`updatedAt` timestamps are not modelled.
- Concurrency between requests is left out. Each route is atomic on the store.
- Error texts of the store (validation messages, duplicate keys, cast errors) are left out. They are one constant.
- Auth.Authenticate: the 500 "Authentication failed" raised when the database query throws is not modelled.
- ProjectRoutes.CreateProject: the 404 "User not found" is unreachable once the middleware has found the user, so it is not modelled.
- ProjectRoutes.UpdateProject: the 404 "Project not found or update failed" after the check is unreachable without concurrent deletes. The reply is the modelled project rather than the raw updated document.
- Records.IsObjectId: only the 24-hex-digit form of `ObjectId.isValid` is modelled. The 12-character form is not.
- ChatRoutes.SortByTime: the order among equal timestamps is a stable insertion order. The database does not specify one.
- Dashboard.CompletionRate: it is modelled with exact rationals rather than floating point. 100c/52 is never within 1/26 of a half, so rounding cannot differ.
- ChatView.SelectFile: a refused file keeps the earlier selection, as the code does. Only the input element is cleared.
- `formatFileSize`, styling, scrolling and the modal component (`ProjectModal.tsx`) are not modelled. ProjectModal.tsx is not part of this model; only the data it hands over is.
- Accounts.Login: the email and password are modelled as present strings. A body without them reaches `findOne({ email: undefined })` and `user.password !== undefined`, whose outcome depends on how the driver treats `undefined` in a filter. That case is not modelled.
- Accounts.GitHubSignIn: the reply's constant `provider: 'github'` field is not part of the modelled reply.
- ProjectRoutes.CreateProject: an `_id` in the body is honoured by `new Project({...req.body})`. The model always uses the fresh id.
- Text.Trim: only ASCII whitespace is removed. JavaScript's `trim` also removes the Unicode spaces (such as the no-break space) and line terminators.
- Text.ToLower: only ASCII letters are lowered. JavaScript's `toLowerCase` also lowers other letters (such as "É").
- Schema.NewProject: the week is an integer. A fractional week such as 3.5, which Mongoose's `Number` with min 1 and max 52 accepts, is not modelled.
- AdminView.AfterStatusReply: on success the page stores the server's document as returned, without the defaults of `ToRow`; the model stores a row. After a 404 the page also reloads the whole list, which is not modelled.
- The unused TypeScript user model (`src/models/User.ts`), the GitHub callback page and the terminal banner are not modelled.

## Findings

| source | as written | input that shows it | evidently intended | confidence | as-written member | corrected member |
|---|---|---|---|---|---|---|
| src/pages/Dashboard.tsx:233 | after deleting the first project of a week, the page drops every project of that week | two projects of the same user for week 3 (the modal submits a second one for a week that already has a project); deleting week 3 removes one on the server and both from the page | drop only the project whose id was deleted | medium, not executed | Dashboard.AfterDeleteByWeek (Scenarios.DeleteByWeekDiverges) | Dashboard.AfterDeleteById (Scenarios.DeleteByIdAgrees) |

=== FILE: accounts.dfy ===
/** Account routes of server.mjs: registration, local login, the GitHub
    sign-in that resolves a provider identity to a local user, and the
    start-up seeding of the admin account. Fresh ids and tokens are
    parameters (the source derives tokens from the clock). */
module Accounts {

  import opened Common
  import opened Records
  import opened Schema
  import opened Auth
  import Text

  const InvalidCredentials := "Invalid credentials"
  const ExchangeFailed := "Failed to exchange code for token"
  /** The text of a store error (validation or duplicate key) is not modelled. */
  const StoreError := "store error"

  const AdminEmail := "admin@52projects.com"
  const AdminPassword := "admin123"

  /** What a successful sign-in answers: the user's public fields and the new token. */
  datatype SignedIn = SignedIn(id: Id, name: string, email: string, role: string, token: string)

  // ---------------------------------------------------------------------
  // POST /api/users/register

  function Register(s: Store, id: Id, name: Option<string>, email: Option<string>, password: Option<string>)
    : (r: (Store, Reply<()>))
    ensures r.1.Fail? ==> r.0 == s && r.1.code == 500
    ensures r.1.Ok? ==> r.1.code == 201 && r.0.projects == s.projects && r.0.messages == s.messages
    ensures r.1.Ok? ==> |r.0.users| == |s.users| + 1 && r.0.users[..|s.users|] == s.users
    ensures r.1.Ok? ==> var u := r.0.users[|s.users|];
      u.id == id && u.role == RoleUser && u.provider == ProviderLocal && u.authToken.None?
      && Some(u.name) == name && Some(u.email) == email && u.password == password
      && u.githubId.None? && u.avatar.None?
    ensures r.1.Ok? <==> (
      && Truthy(name) && Truthy(email) && Truthy(password)
      && forall k :: 0 <= k < |s.users| ==> !UserClash(s.users[k], NewUser(id, UserDraft(name, email, password, None, None, None, None))))
  {
    var u := NewUser(id, UserDraft(name, email, password, None, None, None, None));
    match InsertUser(s.users, u)
    case None => (s, Fail(500, StoreError))
    case Some(us) => (s.(users := us), Ok(201, ()))
  }

  // ---------------------------------------------------------------------
  // POST /api/users/login

  /** The account a login succeeds on: the first user with this email,
      provided its stored password equals the given one (plain comparison). */
  function LoginTarget(us: seq<User>, email: string, password: string): (r: Option<nat>)
    ensures r.Some? ==> r.value < |us| && us[r.value].email == email && us[r.value].password == Some(password)
    ensures r.Some? ==> forall k :: 0 <= k < r.value ==> us[k].email != email
    ensures r.None? <==> forall k :: 0 <= k < |us| && us[k].email == email ==>
      us[k].password != Some(password) || exists j :: 0 <= j < k && us[j].email == email
  {
    match FindFirst(us, (u: User) => u.email == email)
    case None => None
    case Some(i) => if us[i].password == Some(password) then Some(i) else None
  }

  function Login(s: Store, email: string, password: string, token: string): (r: (Store, Reply<SignedIn>))
    ensures r.1.Fail? ==> r.0 == s
    ensures r.1 == Fail(401, InvalidCredentials) <==> LoginTarget(s.users, email, password).None?
    ensures r.1.Ok? ==> (
      var i := LoginTarget(s.users, email, password).value;
      && r.1.code == 200
      && r.1.body == SignedIn(s.users[i].id, s.users[i].name, s.users[i].email, OrElse(s.users[i].role, RoleUser), token)
      && r.0 == s.(users := s.users[i := s.users[i].(authToken := Some(token))]))
    ensures r.1.Ok? <==> (
      && LoginTarget(s.users, email, password).Some?
      && var i := LoginTarget(s.users, email, password).value;
         ReplaceUser(s.users, i, s.users[i].(authToken := Some(token))).Some?)
  {
    match LoginTarget(s.users, email, password)
    case None => (s, Fail(401, InvalidCredentials))
    case Some(i) =>
      var u := s.users[i].(authToken := Some(token));
      match ReplaceUser(s.users, i, u)
      case None => (s, Fail(500, StoreError))
      case Some(us) => (s.(users := us), Ok(200, SignedIn(u.id, u.name, u.email, OrElse(u.role, RoleUser), token)))
  }

  /** A freshly registered account can log in with the credentials it was
      registered with, given a token nobody holds yet. */
  lemma RegisterThenLogin(s: Store, id: Id, name: string, email: string, password: string, token: string)
    requires Register(s, id, Some(name), Some(email), Some(password)).1.Ok?
    requires forall k :: 0 <= k < |s.users| ==> s.users[k].authToken != Some(token)
    ensures var s' := Register(s, id, Some(name), Some(email), Some(password)).0;
      var r := Login(s', email, password, token).1;
      && r.Ok?
      && r.body == SignedIn(id, name, email, RoleUser, token)
  {
    var s' := Register(s, id, Some(name), Some(email), Some(password)).0;
    var n := |s.users|;
    var u := s'.users[n];
    assert s'.users == s.users + [u];
    assert FindFirst(s'.users, (v: User) => v.email == email) == Some(n) by {
      forall k | 0 <= k < n ensures s'.users[k].email != email {
        assert !UserClash(s.users[k], u);
      }
    }
    assert LoginTarget(s'.users, email, password) == Some(n);
    assert ReplaceUser(s'.users, n, u.(authToken := Some(token))).Some? by {
      forall k | 0 <= k < |s'.users| && k != n ensures !UserClash(s'.users[k], u.(authToken := Some(token))) {
        assert !UserClash(s.users[k], u);
      }
    }
  }

  /** After a login the new token authenticates as that user, and the token
      the user held before is now answered "Invalid token". */
  lemma LoginRotatesToken(s: Store, email: string, password: string, token: string)
    requires ValidStore(s) && ' ' !in token && token != ""
    requires Login(s, email, password, token).1.Ok?
    ensures var i := LoginTarget(s.users, email, password).value;
      var s' := Login(s, email, password, token).0;
      && Authenticate(s'.users, BearerHeader(token)) == Granted(s'.users[i])
      && (forall h, prev :: s.users[i].authToken == Some(prev) && prev != token && BearerToken(h) == Some(prev) ==>
            Authenticate(s'.users, h) == Denied(InvalidToken))
  {
    var i := LoginTarget(s.users, email, password).value;
    var s' := Login(s, email, password, token).0;
    assert ReplaceUser(s.users, i, s'.users[i]).Some?;
    BearerHeaderToken(token);
    AuthenticateHolder(s'.users, i, BearerHeader(token));
    forall h, prev | s.users[i].authToken == Some(prev) && prev != token && BearerToken(h) == Some(prev)
      ensures Authenticate(s'.users, h) == Denied(InvalidToken)
    {
      forall k | 0 <= k < |s'.users| ensures s'.users[k].authToken != Some(prev) {
        if k != i {
          assert !UserClash(s.users[k], s.users[i]) by {
            if k < i { assert !UserClash(s.users[k], s.users[i]); } else { assert !UserClash(s.users[i], s.users[k]); }
          }
        }
      }
    }
  }

  // ---------------------------------------------------------------------
  // POST /api/github/token

  /** The provider profile (`GET /user`). */
  datatype GitHubProfile = GitHubProfile(id: nat, login: string, name: Option<string>, avatarUrl: Option<string>)

  /** One entry of the provider's email list (`GET /user/emails`). */
  datatype GitHubEmail = GitHubEmail(email: string, primary: bool)

  /** Entry `k` is the first one marked primary. */
  predicate FirstPrimary(emails: seq<GitHubEmail>, k: int) {
    0 <= k < |emails| && emails[k].primary && forall t :: 0 <= t < k ==> !emails[t].primary
  }

  /** `emails.find(e => e.primary)?.email`, with an empty address counting as none. */
  function PrimaryEmail(emails: seq<GitHubEmail>): (r: Option<string>)
    ensures r.Some? ==> r.value != "" && exists k :: FirstPrimary(emails, k) && emails[k].email == r.value
    ensures forall k :: FirstPrimary(emails, k) && emails[k].email != "" ==> r == Some(emails[k].email)
    ensures forall k :: FirstPrimary(emails, k) && emails[k].email == "" ==> r.None?
    ensures (forall k :: 0 <= k < |emails| ==> !emails[k].primary) ==> r.None?
  {
    match FindFirst(emails, IsPrimary)
    case None => None
    case Some(k) =>
      FirstPrimaryUnique(emails, k);
      if emails[k].email == "" then None else Some(emails[k].email)
  }

  predicate IsPrimary(e: GitHubEmail) { e.primary }

  /** Only one entry can be the first primary one. */
  lemma FirstPrimaryUnique(emails: seq<GitHubEmail>, k: int)
    requires FirstPrimary(emails, k)
    ensures forall j :: FirstPrimary(emails, j) ==> j == k
  {
  }

  /** Secondary addresses listed before the primary one are passed over, and
      whatever follows it does not matter. */
  lemma PrimaryEmailAfterSecondaries(pre: seq<GitHubEmail>, email: string, post: seq<GitHubEmail>)
    requires forall k :: 0 <= k < |pre| ==> !pre[k].primary
    requires email != ""
    ensures PrimaryEmail(pre + [GitHubEmail(email, true)] + post) == Some(email)
  {
    var all := pre + [GitHubEmail(email, true)] + post;
    assert all[|pre|] == GitHubEmail(email, true);
    assert FirstPrimary(all, |pre|);
  }

  /** How a provider identity is matched to a local account. */
  datatype Resolution = ByGitHubId(index: nat) | ByEmail(index: nat) | NewAccount

  /** Lookup by GitHub id first, then by the primary email, else a new account. */
  function Resolve(us: seq<User>, gid: string, email: string): (r: Resolution)
    ensures r.ByGitHubId? ==> r.index < |us| && us[r.index].githubId == Some(gid)
    ensures r.ByEmail? ==> r.index < |us| && us[r.index].email == email
    ensures (exists k :: 0 <= k < |us| && us[k].githubId == Some(gid)) ==> r.ByGitHubId?
    ensures r.NewAccount? <==> forall k :: 0 <= k < |us| ==> us[k].githubId != Some(gid) && us[k].email != email
  {
    match FindFirst(us, (u: User) => u.githubId == Some(gid))
    case Some(i) => ByGitHubId(i)
    case None =>
      match FindFirst(us, (u: User) => u.email == email)
      case Some(i) => ByEmail(i)
      case None => NewAccount
  }

  /** The account the sign-in saves, before the save itself. */
  function ResolvedUser(us: seq<User>, res: Resolution, p: GitHubProfile, email: string, freshId: Id, token: string): (u: User)
    requires res.ByGitHubId? || res.ByEmail? ==> res.index < |us|
    ensures u.authToken == Some(token)
    ensures res.ByGitHubId? ==> u == us[res.index].(authToken := Some(token))
    ensures res.ByEmail? ==> u == us[res.index].(githubId := Some(Text.NatToString(p.id)),
      provider := ProviderGitHub, avatar := p.avatarUrl, authToken := Some(token))
    ensures res.NewAccount? ==> (
      && u.id == freshId && u.role == RoleUser && u.provider == ProviderGitHub
      && u.email == email && u.name == OrElse(p.name.GetOr(""), p.login)
      && u.githubId == Some(Text.NatToString(p.id)) && u.avatar == p.avatarUrl && u.password.None?)
  {
    var gid := Text.NatToString(p.id);
    match res
    case ByGitHubId(i) => us[i].(authToken := Some(token))
    case ByEmail(i) => us[i].(githubId := Some(gid), provider := ProviderGitHub, avatar := p.avatarUrl, authToken := Some(token))
    case NewAccount =>
      NewUser(freshId, UserDraft(Some(OrElse(p.name.GetOr(""), p.login)), Some(email), None,
        Some(RoleUser), Some(ProviderGitHub), Some(gid), p.avatarUrl)).(authToken := Some(token))
  }

  function GitHubSignIn(s: Store, p: GitHubProfile, emails: seq<GitHubEmail>, freshId: Id, token: string)
    : (r: (Store, Reply<SignedIn>))
    ensures r.1.Fail? ==> r.0 == s && r.1 == Fail(500, ExchangeFailed)
    ensures PrimaryEmail(emails).None? ==> r.1.Fail?
    ensures r.1.Ok? ==> (
      && r.1.code == 200 && r.1.body.token == token
      && r.0.projects == s.projects && r.0.messages == s.messages)
    ensures r.1.Ok? ==>
      var email := PrimaryEmail(emails).value;
      var res := Resolve(s.users, Text.NatToString(p.id), email);
      var u := ResolvedUser(s.users, res, p, email, freshId, token);
      && (res.NewAccount? ==> r.0.users == s.users + [u])
      && (!res.NewAccount? ==> r.0.users == s.users[res.index := u])
      && u in r.0.users && r.1.body == SignedIn(u.id, u.name, u.email, u.role, token)
    ensures r.1.Ok? <==> (
      && PrimaryEmail(emails).Some?
      && var email := PrimaryEmail(emails).value;
         var res := Resolve(s.users, Text.NatToString(p.id), email);
         var u := ResolvedUser(s.users, res, p, email, freshId, token);
         if res.NewAccount? then InsertUser(s.users, u).Some? else ReplaceUser(s.users, res.index, u).Some?)
  {
    match PrimaryEmail(emails)
    case None => (s, Fail(500, ExchangeFailed))
    case Some(email) =>
      var res := Resolve(s.users, Text.NatToString(p.id), email);
      var u := ResolvedUser(s.users, res, p, email, freshId, token);
      var saved := if res.NewAccount? then InsertUser(s.users, u) else ReplaceUser(s.users, res.index, u);
      match saved
      case None => (s, Fail(500, ExchangeFailed))
      case Some(us) =>
        assert if res.NewAccount? then us[|s.users|] == u else us[res.index] == u;
        (s.(users := us), Ok(200, SignedIn(u.id, u.name, u.email, u.role, token)))
  }

  /** Every successful GitHub sign-in leaves the new token authenticating as
      the resolved account, which kept its role unless it was created. */
  lemma GitHubSignInAuthenticates(s: Store, p: GitHubProfile, emails: seq<GitHubEmail>, freshId: Id, token: string)
    requires ValidStore(s) && ' ' !in token && token != ""
    requires GitHubSignIn(s, p, emails, freshId, token).1.Ok?
    ensures var r := GitHubSignIn(s, p, emails, freshId, token);
      var res := Resolve(s.users, Text.NatToString(p.id), PrimaryEmail(emails).value);
      && Authenticate(r.0.users, BearerHeader(token)).Granted?
      && Authenticate(r.0.users, BearerHeader(token)).user.id == r.1.body.id
      && (res.NewAccount? ==> Authenticate(r.0.users, BearerHeader(token)).user.role == RoleUser)
      && (!res.NewAccount? ==> Authenticate(r.0.users, BearerHeader(token)).user.role == s.users[res.index].role)
  {
    var r := GitHubSignIn(s, p, emails, freshId, token);
    var email := PrimaryEmail(emails).value;
    var res := Resolve(s.users, Text.NatToString(p.id), email);
    var u := ResolvedUser(s.users, res, p, email, freshId, token);
    BearerHeaderToken(token);
    if res.NewAccount? {
      var k := InsertUser(s.users, u);
      assert r.0.users == k.value;
      AuthenticateHolder(r.0.users, |s.users|, BearerHeader(token));
    } else {
      var k := ReplaceUser(s.users, res.index, u);
      assert r.0.users == k.value;
      AuthenticateHolder(r.0.users, res.index, BearerHeader(token));
    }
  }

  // ---------------------------------------------------------------------
  // createAdminUser (run once at start-up)

  function AdminDraft(): UserDraft {
    UserDraft(Some("Admin"), Some(AdminEmail), Some(AdminPassword), Some(RoleAdmin), Some(ProviderLocal), None, None)
  }

  /** Adds the built-in admin unless some user already has its email. */
  function SeedAdmin(s: Store, freshId: Id): (r: Store)
    ensures (exists k :: 0 <= k < |s.users| && s.users[k].email == AdminEmail) ==> r == s
    ensures r == s || r == s.(users := s.users + [NewUser(freshId, AdminDraft())])
  {
    if exists k :: 0 <= k < |s.users| && s.users[k].email == AdminEmail then s
    else match InsertUser(s.users, NewUser(freshId, AdminDraft()))
      case None => s
      case Some(us) => s.(users := us)
  }

  /** On a store without that email, the built-in credentials log in as an admin. */
  lemma SeededAdminCanLogIn(s: Store, freshId: Id, token: string)
    requires ValidStore(s)
    requires forall k :: 0 <= k < |s.users| ==> s.users[k].email != AdminEmail && s.users[k].id != freshId
    requires forall k :: 0 <= k < |s.users| ==> s.users[k].authToken != Some(token)
    ensures var s' := SeedAdmin(s, freshId);
      Login(s', AdminEmail, AdminPassword, token).1.Ok?
      && Login(s', AdminEmail, AdminPassword, token).1.body.role == RoleAdmin
  {
    var a := NewUser(freshId, AdminDraft());
    var s' := SeedAdmin(s, freshId);
    assert s'.users == s.users + [a];
    var i := FindFirst(s'.users, (u: User) => u.email == AdminEmail);
    assert i == Some(|s.users|) by {
      assert s'.users[|s.users|].email == AdminEmail;
    }
    var u := a.(authToken := Some(token));
    assert ReplaceUser(s'.users, |s.users|, u).Some?;
  }
}

=== FILE: admin_view.dfy ===
/** The admin page (src/pages/Admin.tsx): loading the project list into
    table rows, the search / week / status filters, the status counters,
    approving and rejecting, deleting, and the CSV report. */
module AdminView {

  import opened Common
  import opened Records
  import opened Text
  import Schema

  const All := "all"
  const ColumnNames := ["Week", "Title", "User", "Status", "GitHub Repo", "Project URL"]

  /** A table row: a project with every missing field defaulted. */
  datatype Row = Row(
    id: Id,
    title: string,
    description: string,
    techStack: string,
    week: int,
    status: string,
    githubRepo: string,
    userId: Id,
    userName: string,
    url: string,
    isHidden: bool)

  // ---------------------------------------------------------------------
  // loading

  /** `!project.isHidden` fails exactly for `isHidden: true`. */
  predicate Hidden(p: Project) {
    p.isHidden == Some(true)
  }

  /** The projects the page keeps: `!project.isHidden`. */
  predicate Shown(p: Project) {
    !Hidden(p)
  }

  /** The defaulting transform: status "Not Started" when empty, absent
      repository and URL as "". */
  function ToRow(p: Project): (r: Row)
    ensures r.id == p.id && r.title == p.title && r.week == p.week && r.userName == p.userName
    ensures r.userId == p.userId && r.description == p.description && r.techStack == p.techStack
    ensures r.status == (if p.status == "" then NotStarted else p.status)
    ensures r.githubRepo == p.githubRepo.GetOr("") && r.url == p.url.GetOr("")
    ensures !r.isHidden
  {
    Row(p.id, p.title, p.description, p.techStack, p.week, OrElse(p.status, NotStarted),
        p.githubRepo.GetOr(""), p.userId, p.userName, p.url.GetOr(""), false)
  }

  /** The fetched projects minus the hidden ones, each defaulted, in order. */
  function LoadRows(ps: seq<Project>): (r: seq<Row>)
    ensures |r| == Count(ps, Shown)
    ensures forall k :: 0 <= k < |r| ==> !r[k].isHidden && r[k].status != ""
    ensures forall p :: p in ps && !Hidden(p) ==> ToRow(p) in r
    ensures forall k :: 0 <= k < |r| ==> exists p :: p in ps && !Hidden(p) && r[k] == ToRow(p)
  {
    var visible := Filter(ps, Shown);
    var r := seq(|visible|, k requires 0 <= k < |visible| => ToRow(visible[k]));
    assert forall p :: p in visible ==> ToRow(p) in r by {
      forall p | p in visible ensures ToRow(p) in r {
        var k :| 0 <= k < |visible| && visible[k] == p;
        assert r[k] == ToRow(p);
      }
    }
    assert forall k :: 0 <= k < |r| ==> visible[k] in visible && r[k] == ToRow(visible[k]);
    r
  }

  /** The rows keep the fetched order: row k is the k-th shown project. */
  lemma LoadRowsInOrder(ps: seq<Project>)
    ensures var shown := Filter(ps, Shown);
      && IsSubsequence(shown, ps)
      && |LoadRows(ps)| == |shown|
      && forall k :: 0 <= k < |shown| ==> LoadRows(ps)[k] == ToRow(shown[k])
  {
    FilterIsSubsequence(ps, Shown);
  }

  // ---------------------------------------------------------------------
  // the filters

  /** Case-insensitive search on title, repository and user name. */
  predicate MatchesSearch(r: Row, term: string) {
    || Contains(ToLower(r.title), ToLower(term))
    || Contains(ToLower(r.githubRepo), ToLower(term))
    || Contains(ToLower(r.userName), ToLower(term))
  }

  /** Each filter passes everything when it is off (empty search, "all"). */
  predicate SearchOk(r: Row, term: string) {
    term == "" || MatchesSearch(r, term)
  }

  /** `project.week === parseInt(weekFilter)`; a week text that is not a
      number matches nothing. */
  predicate WeekOk(r: Row, week: string) {
    week == "" || week == All || ParseInt(week) == Some(r.week)
  }

  predicate StatusOk(r: Row, status: string) {
    status == "" || status == All || r.status == status
  }

  predicate Selected(r: Row, term: string, week: string, status: string) {
    SearchOk(r, term) && WeekOk(r, week) && StatusOk(r, status)
  }

  /** One filter of the effect: applied only when it is switched on. */
  function When<T(==,!new)>(on: bool, xs: seq<T>, p: T -> bool): (r: seq<T>)
    ensures forall x :: x in r <==> x in xs && (!on || p(x))
    ensures !on ==> r == xs
  {
    if on then Filter(xs, p) else xs
  }

  /** A filter applied only when switched on is a filter by "off, or passes". */
  lemma WhenIsFilter<T(!new)>(on: bool, xs: seq<T>, p: T -> bool, q: T -> bool)
    requires forall x :: q(x) == (!on || p(x))
    ensures When(on, xs, p) == Filter(xs, q)
  {
    if on {
      FilterCongruent(xs, p, q);
    } else {
      assert forall k :: 0 <= k < |xs| ==> q(xs[k]);
    }
  }

  // The filters as named predicates, so that the effect and the lemmas
  // about it speak of the same functions.
  function SearchBy(term: string): Row -> bool { (x: Row) => MatchesSearch(x, term) }
  function WeekBy(week: string): Row -> bool { (x: Row) => ParseInt(week) == Some(x.week) }
  function StatusBy(status: string): Row -> bool { (x: Row) => x.status == status }
  function SearchOkBy(term: string): Row -> bool { (x: Row) => SearchOk(x, term) }
  function WeekOkBy(week: string): Row -> bool { (x: Row) => WeekOk(x, week) }
  function StatusOkBy(status: string): Row -> bool { (x: Row) => StatusOk(x, status) }
  function SearchWeekOkBy(term: string, week: string): Row -> bool {
    (x: Row) => SearchOk(x, term) && WeekOk(x, week)
  }
  function SelectedBy(term: string, week: string, status: string): Row -> bool {
    (x: Row) => Selected(x, term, week, status)
  }

  /** The filter effect: search, then week, then status, each only when set. */
  function FilterRows(rows: seq<Row>, term: string, week: string, status: string): (r: seq<Row>)
    ensures term == "" && (week == "" || week == All) && (status == "" || status == All) ==> r == rows
  {
    var a := When(term != "", rows, SearchBy(term));
    var b := When(week != "" && week != All, a, WeekBy(week));
    When(status != "" && status != All, b, StatusBy(status))
  }

  lemma SearchStep(rows: seq<Row>, term: string)
    ensures When(term != "", rows, SearchBy(term)) == Filter(rows, SearchOkBy(term))
  {
    WhenIsFilter(term != "", rows, SearchBy(term), SearchOkBy(term));
  }

  lemma WeekStep(rows: seq<Row>, week: string)
    ensures When(week != "" && week != All, rows, WeekBy(week)) == Filter(rows, WeekOkBy(week))
  {
    WhenIsFilter(week != "" && week != All, rows, WeekBy(week), WeekOkBy(week));
  }

  lemma StatusStep(rows: seq<Row>, status: string)
    ensures When(status != "" && status != All, rows, StatusBy(status)) == Filter(rows, StatusOkBy(status))
  {
    WhenIsFilter(status != "" && status != All, rows, StatusBy(status), StatusOkBy(status));
  }

  lemma ConjoinSteps(rows: seq<Row>, term: string, week: string, status: string)
    ensures Filter(Filter(Filter(rows, SearchOkBy(term)), WeekOkBy(week)), StatusOkBy(status))
      == Filter(rows, SelectedBy(term, week, status))
  {
    FilterFilter(rows, SearchOkBy(term), WeekOkBy(week), SearchWeekOkBy(term, week));
    FilterFilter(rows, SearchWeekOkBy(term, week), StatusOkBy(status), SelectedBy(term, week, status));
  }

  /** The three filters in a row are one filter by their conjunction. */
  lemma FilterRowsIsOneFilter(rows: seq<Row>, term: string, week: string, status: string)
    ensures FilterRows(rows, term, week, status) == Filter(rows, SelectedBy(term, week, status))
  {
    var a := When(term != "", rows, SearchBy(term));
    var b := When(week != "" && week != All, a, WeekBy(week));
    SearchStep(rows, term);
    WeekStep(a, week);
    StatusStep(b, status);
    ConjoinSteps(rows, term, week, status);
  }

  /** A row is shown exactly when it passes all three filters. */
  lemma FilterRowsSelects(rows: seq<Row>, term: string, week: string, status: string)
    ensures forall x :: x in FilterRows(rows, term, week, status) <==> x in rows && Selected(x, term, week, status)
  {
    FilterRowsIsOneFilter(rows, term, week, status);
  }

  /** The table keeps the loaded order: the filtered rows are a subsequence. */
  lemma FilterRowsInOrder(rows: seq<Row>, term: string, week: string, status: string)
    ensures IsSubsequence(FilterRows(rows, term, week, status), rows)
  {
    FilterRowsIsOneFilter(rows, term, week, status);
    FilterIsSubsequence(rows, SelectedBy(term, week, status));
  }

  // ---------------------------------------------------------------------
  // the counters

  function CountStatus(rows: seq<Row>, status: string): nat {
    Count(rows, (x: Row) => x.status == status)
  }

  /** With every status inside the enumeration, the three counters add up to
      the total. */
  lemma {:induction false} StatusCountsSum(rows: seq<Row>)
    requires forall k :: 0 <= k < |rows| ==> Schema.IsStatus(rows[k].status)
    ensures CountStatus(rows, Approved) + CountStatus(rows, UnderReview) + CountStatus(rows, NotStarted) == |rows|
  {
    var a := (x: Row) => x.status == Approved;
    var u := (x: Row) => x.status == UnderReview;
    var n := (x: Row) => x.status == NotStarted;
    var au := (x: Row) => x.status == Approved || x.status == UnderReview;
    var aun := (x: Row) => x.status == Approved || x.status == UnderReview || x.status == NotStarted;
    CountSplit(rows, a, u, au);
    CountSplit(rows, au, n, aun);
    assert forall k :: 0 <= k < |rows| ==> aun(rows[k]);
  }

  // ---------------------------------------------------------------------
  // approving and rejecting

  /** The buttons of a row: Approve and Reject, only for "Under Review". */
  function Actions(r: Row): (targets: seq<string>)
    ensures targets != [] <==> r.status == UnderReview
    ensures targets != [] ==> targets == [Approved, NotStarted]
  {
    if r.status == UnderReview then [Approved, NotStarted] else []
  }

  /** What a status change does first: reload when the id is not in the list,
      otherwise send `PUT /api/projects/:id` with `{ status }`. */
  datatype StatusRequest = Reload | Put(id: Id, body: ProjectBody)

  function RequestStatusChange(rows: seq<Row>, id: Id, newStatus: string): (q: StatusRequest)
    ensures q.Reload? <==> forall k :: 0 <= k < |rows| ==> rows[k].id != id
    ensures q.Put? ==> (
      && q.id == id && q.body.status == Some(newStatus)
      && q.body == ProjectBody(None, None, None, None, Some(newStatus), None, None, None, None, None))
  {
    if exists k :: 0 <= k < |rows| && rows[k].id == id then
      Put(id, ProjectBody(None, None, None, None, Some(newStatus), None, None, None, None, None))
    else Reload
  }

  /** How the PUT was answered: 404, another error, or the updated project. */
  datatype PutOutcome = NotFound | Failed | Updated(project: Row)

  /** The rows after the reply: a 404 removes the id, a success replaces
      every row with the returned id, any other error changes nothing. */
  function AfterStatusReply(rows: seq<Row>, id: Id, outcome: PutOutcome): (r: seq<Row>)
    ensures outcome.Failed? ==> r == rows
    ensures outcome.NotFound? ==> forall x :: x in r <==> x in rows && x.id != id
    ensures outcome.Updated? ==> (
      && |r| == |rows|
      && forall k :: 0 <= k < |rows| ==> r[k] == (if rows[k].id == outcome.project.id then outcome.project else rows[k]))
  {
    match outcome
    case Failed => rows
    case NotFound => Filter(rows, (x: Row) => x.id != id)
    case Updated(p) => seq(|rows|, k requires 0 <= k < |rows| => if rows[k].id == p.id then p else rows[k])
  }

  /** A successful status change leaves the rows of other projects alone and
      keeps the list in order. */
  lemma StatusReplyTouchesOnlyTarget(rows: seq<Row>, id: Id, p: Row)
    ensures forall k :: 0 <= k < |rows| && rows[k].id != p.id ==> AfterStatusReply(rows, id, Updated(p))[k] == rows[k]
    ensures forall k :: 0 <= k < |rows| && rows[k].id == p.id ==> AfterStatusReply(rows, id, Updated(p))[k] == p
  {
  }

  // ---------------------------------------------------------------------
  // deleting

  /** The rows after a delete: on success every row with that id leaves. */
  function AfterDelete(rows: seq<Row>, id: Id, ok: bool): (r: seq<Row>)
    ensures !ok ==> r == rows
    ensures ok ==> forall x :: x in r <==> x in rows && x.id != id
    ensures IsSubsequence(r, rows)
  {
    FilterIsSubsequence(rows, (x: Row) => x.id != id);
    if ok then Filter(rows, (x: Row) => x.id != id) else IsSubsequenceRefl(rows); rows
  }

  lemma {:induction false} IsSubsequenceRefl<T>(xs: seq<T>)
    ensures IsSubsequence(xs, xs)
  {
    if xs != [] {
      IsSubsequenceRefl(xs[1..]);
    }
  }

  // ---------------------------------------------------------------------
  // the CSV report

  /** The six cells of a row, in column order. */
  function Cells(r: Row): (cells: seq<string>)
    ensures |cells| == 6
  {
    [IntToString(r.week), r.title, r.userName, r.status, r.githubRepo, r.url]
  }

  function CsvLine(r: Row): string {
    Join(Cells(r), ',')
  }

  function CsvBody(rows: seq<Row>): (lines: seq<string>)
    ensures |lines| == |rows| && forall k :: 0 <= k < |rows| ==> lines[k] == CsvLine(rows[k])
  {
    seq(|rows|, k requires 0 <= k < |rows| => CsvLine(rows[k]))
  }

  /** The header, then one comma-joined line per row, joined by newlines. */
  function Csv(rows: seq<Row>): string {
    Join([CsvHeader()] + CsvBody(rows), '\n')
  }

  /** The header line: the column names joined by commas. */
  function CsvHeader(): (h: string)
    ensures '\n' !in h
  {
    assert forall k :: 0 <= k < |ColumnNames| ==> '\n' !in ColumnNames[k] by {
      assert '\n' !in ColumnNames[4];
      assert '\n' !in ColumnNames[5];
    }
    JoinFree(ColumnNames, ',', '\n');
    Join(ColumnNames, ',')
  }

  /** No cell holds `c`. */
  predicate CellsFree(r: Row, c: char) {
    c !in r.title && c !in r.userName && c !in r.status && c !in r.githubRepo && c !in r.url
  }

  /** Joining pieces free of `c` with another separator is free of `c`. */
  lemma {:induction false} JoinFree(parts: seq<string>, sep: char, c: char)
    requires c != sep
    requires forall k :: 0 <= k < |parts| ==> c !in parts[k]
    ensures c !in Join(parts, sep)
  {
    if |parts| > 1 {
      JoinFree(parts[1..], sep, c);
    }
  }

  lemma IntToStringFree(i: int, c: char)
    requires c != '-' && !IsDigit(c)
    ensures c !in IntToString(i)
  {
  }

  lemma CsvLineFree(r: Row)
    requires CellsFree(r, '\n')
    ensures '\n' !in CsvLine(r)
  {
    IntToStringFree(r.week, '\n');
    JoinFree(Cells(r), ',', '\n');
  }

  /** Without line breaks in the cells the report has one line per row after
      the header, and line `k + 1` is row `k`. */
  lemma CsvLines(rows: seq<Row>)
    requires forall k :: 0 <= k < |rows| ==> CellsFree(rows[k], '\n')
    ensures |Split(Csv(rows), '\n')| == 1 + |rows|
    ensures Split(Csv(rows), '\n')[0] == CsvHeader()
    ensures forall k :: 0 <= k < |rows| ==> Split(Csv(rows), '\n')[k + 1] == CsvLine(rows[k])
  {
    var lines := [CsvHeader()] + CsvBody(rows);
    forall i | 0 <= i < |lines| ensures '\n' !in lines[i] {
      if i > 0 {
        CsvLineFree(rows[i - 1]);
      }
    }
    SplitJoin(lines, '\n');
  }

  /** Without commas in the cells a line splits back into its six cells. */
  lemma CsvColumns(r: Row)
    requires CellsFree(r, ',')
    ensures Split(CsvLine(r), ',') == Cells(r)
  {
    IntToStringFree(r.week, ',');
    SplitJoin(Cells(r), ',');
  }

  /** Cells are not quoted: a comma inside a title splits it into two
      columns and shifts every later column one place to the right. */
  lemma CsvCommaShiftsColumns(r: Row, a: string, b: string)
    requires r.title == a + [','] + b && ',' !in a && ',' !in b
    requires ',' !in r.userName && ',' !in r.status && ',' !in r.githubRepo && ',' !in r.url
    ensures Split(CsvLine(r), ',') == [IntToString(r.week), a, b, r.userName, r.status, r.githubRepo, r.url]
  {
    var cells := Cells(r);
    var cols := [IntToString(r.week), a, b, r.userName, r.status, r.githubRepo, r.url];
    var tail := Join(cells[2..], ',');
    assert cols[3..] == cells[2..];
    assert Join(cols[2..], ',') == b + [','] + tail;
    assert Join(cols[1..], ',') == a + [','] + (b + [','] + tail);
    assert Join(cells[1..], ',') == r.title + [','] + tail;
    assert Join(cols, ',') == CsvLine(r);
    IntToStringFree(r.week, ',');
    SplitJoin(cols, ',');
  }
}

=== FILE: auth.dfy ===
/** The `authenticateToken` middleware: the bearer token is the second
    space-separated field of the `Authorization` header, and it identifies the
    user whose stored `authToken` equals it. */
module Auth {

  import opened Common
  import opened Records
  import opened Schema
  import Text

  const AuthRequired := "Authentication required"
  const InvalidToken := "Invalid token"

  /** `authHeader && authHeader.split(' ')[1]`, where an absent or empty
      second field means "no token". */
  function BearerToken(header: Option<string>): (r: Option<string>)
    ensures r.Some? ==> r.value != "" && ' ' !in r.value
    ensures header.None? ==> r.None?
    ensures header.Some? && ' ' !in header.value ==> r.None?
  {
    match header
    case None => None
    case Some(h) =>
      var parts := Text.Split(h, ' ');
      Text.FirstPiece(h, ' ');
      if |parts| >= 2 && parts[1] != "" then Some(parts[1]) else None
  }

  /** The header `Bearer <t>` the client sends. */
  function BearerHeader(t: string): Option<string> {
    Some("Bearer " + t)
  }

  /** `h` is a first field `a`, one space, the token `t`, then nothing or a
      further space-separated remainder `b`. */
  predicate HeaderShape(h: string, a: string, t: string, b: string) {
    ' ' !in a && h == a + " " + t + b && (b == "" || b[0] == ' ')
  }

  /** Reading direction: any header of that shape yields `t`. */
  lemma BearerTokenOfShape(a: string, t: string, b: string)
    requires ' ' !in a && ' ' !in t && t != ""
    requires b == "" || b[0] == ' '
    ensures BearerToken(Some(a + " " + t + b)) == Some(t)
  {
    var h := a + " " + t + b;
    assert h == a + [' '] + (t + b);
    Text.SplitAfterPiece(a, ' ', t + b);
    if b == "" {
      assert t + b == t;
      Text.SplitNoSeparator(t, ' ');
    } else {
      assert t + b == t + [' '] + b[1..];
      Text.SplitAfterPiece(t, ' ', b[1..]);
    }
  }

  /** Converse direction: a token is only ever read from a header of that shape. */
  lemma BearerTokenShape(h: string, t: string)
    requires BearerToken(Some(h)) == Some(t)
    ensures exists a, b :: HeaderShape(h, a, t, b)
  {
    var parts := Text.Split(h, ' ');
    Text.JoinSplit(h, ' ');
    assert |parts| >= 2 && parts[1] == t;
    var rest := parts[1..];
    assert Text.Join(parts, ' ') == parts[0] + [' '] + Text.Join(rest, ' ');
    if |rest| == 1 {
      assert HeaderShape(h, parts[0], t, "");
    } else {
      var b := [' '] + Text.Join(rest[1..], ' ');
      assert Text.Join(rest, ' ') == t + b;
      assert HeaderShape(h, parts[0], t, b);
    }
  }

  lemma BearerHeaderToken(t: string)
    requires ' ' !in t && t != ""
    ensures BearerToken(BearerHeader(t)) == Some(t)
  {
    BearerTokenOfShape("Bearer", t, "");
    assert "Bearer" + " " + t + "" == "Bearer " + t;
  }

  /** Outcome of the middleware: the request proceeds as `user`, or is
      answered 401 with `error`. */
  datatype AuthResult = Granted(user: User) | Denied(error: string)

  function Authenticate(us: seq<User>, header: Option<string>): (r: AuthResult)
    ensures r == Denied(AuthRequired) <==> BearerToken(header).None?
    ensures r == Denied(InvalidToken) <==>
      BearerToken(header).Some? && forall k :: 0 <= k < |us| ==> us[k].authToken != BearerToken(header)
    ensures r.Denied? ==> r.error == AuthRequired || r.error == InvalidToken
    ensures r.Granted? ==> r.user in us && r.user.authToken == BearerToken(header)
  {
    match BearerToken(header)
    case None => Denied(AuthRequired)
    case Some(t) =>
      match FindFirst(us, (u: User) => u.authToken == Some(t))
      case None => Denied(InvalidToken)
      case Some(k) => Granted(us[k])
  }

  /** With unique tokens, a header carrying a user's token authenticates as
      exactly that user. */
  lemma AuthenticateHolder(us: seq<User>, i: nat, header: Option<string>)
    requires UsersUnique(us) && i < |us|
    requires us[i].authToken.Some? && BearerToken(header) == us[i].authToken
    ensures Authenticate(us, header) == Granted(us[i])
  {
    var t := us[i].authToken.value;
    var k := FindFirst(us, (u: User) => u.authToken == Some(t));
    TokenHolderUnique(us, i, k.value, t);
  }
}

=== FILE: chat_routes.dfy ===
/** The chat routes of server.mjs: posting a message (optionally with an
    uploaded file), listing the messages the caller may read in timestamp
    order, and deleting a message as its sender or as an admin. */
module ChatRoutes {

  import opened Common
  import opened Records
  import opened Schema
  import opened Auth

  const MessageNotFound := "Message not found"
  const NotAuthorized := "Not authorized to delete this message"
  const MessageDeleted := "Message deleted successfully"
  /** The text of a store error (validation, duplicate key, cast) is not modelled. */
  const StoreError := "store error"
  const UploadsPrefix := "/uploads/"

  // ---------------------------------------------------------------------
  // POST /api/chat

  /** The message data: the body, with sender id and name overwritten by the
      caller's, and the file fields overwritten by the upload when there is one. */
  function ChatData(b: ChatBody, u: User, file: Option<Upload>): (d: ChatBody)
    ensures d.senderId == Some(u.id) && d.senderName == Some(DisplayName(u))
    ensures d.content == b.content && d.isAdmin == b.isAdmin && d.timestamp == b.timestamp
    ensures file.None? ==> (
      && d.fileUrl == b.fileUrl && d.fileName == b.fileName
      && d.fileType == b.fileType && d.fileSize == b.fileSize)
    ensures file.Some? ==> (
      && d.fileUrl == Some(UploadsPrefix + file.value.filename)
      && d.fileName == Some(file.value.originalName)
      && d.fileType == Some(file.value.mimeType) && d.fileSize == Some(file.value.size))
  {
    var d := b.(senderId := Some(u.id), senderName := Some(DisplayName(u)));
    match file
    case None => d
    case Some(f) =>
      d.(fileUrl := Some(UploadsPrefix + f.filename), fileName := Some(f.originalName),
         fileType := Some(f.mimeType), fileSize := Some(f.size))
  }

  function PostMessage(s: Store, header: Option<string>, b: ChatBody, file: Option<Upload>, freshId: Id, now: int)
    : (r: (Store, Reply<Message>))
    ensures r.1.Fail? ==> r.0 == s
    ensures Authenticate(s.users, header).Denied? ==> r.1 == Fail(401, Authenticate(s.users, header).error)
    ensures r.1.Ok? ==> (
      var u := Authenticate(s.users, header).user;
      var m := r.1.body;
      && r.1.code == 201
      && r.0 == s.(messages := s.messages + [m])
      && m.id == freshId && m.senderId == u.id && m.senderName == DisplayName(u)
      && b.content == Some(m.content)
      && m.isAdmin == b.isAdmin.GetOr(false) && m.timestamp == b.timestamp.GetOr(now)
      && MessageDeclaredOnly(m)
      && (file.None? ==> (
           && m.fileUrl == b.fileUrl && m.fileName == b.fileName
           && m.fileType == b.fileType && m.fileSize == b.fileSize))
      && (file.Some? ==> (
           && m.fileUrl == Some(UploadsPrefix + file.value.filename)
           && m.fileName == Some(file.value.originalName)
           && m.fileType == Some(file.value.mimeType) && m.fileSize == Some(file.value.size))))
    ensures r.1.Ok? <==> (
      && Authenticate(s.users, header).Granted?
      && Truthy(b.content)
      && Authenticate(s.users, header).user.id != ""
      && DisplayName(Authenticate(s.users, header).user) != ""
      && forall k :: 0 <= k < |s.messages| ==> s.messages[k].id != freshId)
  {
    match Authenticate(s.users, header)
    case Denied(e) => (s, Fail(401, e))
    case Granted(u) =>
      var m := NewMessage(freshId, ChatData(b, u, file), now);
      match InsertMessage(s.messages, m)
      case None => (s, Fail(500, StoreError))
      case Some(ms) => (s.(messages := ms), Ok(201, m))
  }

  lemma PostPreservesValidStore(s: Store, header: Option<string>, b: ChatBody, file: Option<Upload>, freshId: Id, now: int)
    requires ValidStore(s)
    ensures ValidStore(PostMessage(s, header, b, file, freshId, now).0)
  {
  }

  // ---------------------------------------------------------------------
  // GET /api/chat

  /** Non-decreasing timestamps. */
  predicate SortedByTime(ms: seq<Message>) {
    forall i, j :: 0 <= i < j < |ms| ==> ms[i].timestamp <= ms[j].timestamp
  }

  /** `m` placed after every message of `ms` whose timestamp is not later. */
  function InsertByTime(m: Message, ms: seq<Message>): (r: seq<Message>)
    ensures multiset(r) == multiset(ms) + multiset{m}
    ensures forall k :: 0 <= k < |r| ==> r[k] == m || r[k] in ms
    ensures SortedByTime(ms) ==> SortedByTime(r)
  {
    if ms == [] then [m]
    else if m.timestamp < ms[0].timestamp then [m] + ms
    else
      var rest := InsertByTime(m, ms[1..]);
      assert ms == [ms[0]] + ms[1..];
      LowerBound(ms, rest, m);
      [ms[0]] + rest
  }

  /** The head of a sorted sequence is not later than anything inserted after it. */
  lemma LowerBound(ms: seq<Message>, rest: seq<Message>, m: Message)
    requires ms != [] && ms[0].timestamp <= m.timestamp
    requires forall k :: 0 <= k < |rest| ==> rest[k] == m || rest[k] in ms[1..]
    requires SortedByTime(ms[1..]) ==> SortedByTime(rest)
    ensures SortedByTime(ms) ==> SortedByTime([ms[0]] + rest)
  {
    if SortedByTime(ms) {
      assert SortedByTime(ms[1..]);
      forall k | 0 <= k < |rest| ensures ms[0].timestamp <= rest[k].timestamp {
        if rest[k] != m {
          var j :| 0 <= j < |ms[1..]| && ms[1..][j] == rest[k];
          assert ms[j + 1] == rest[k];
        }
      }
    }
  }

  /** `.sort({ timestamp: 1 })`: an insertion sort, stable on equal timestamps. */
  function SortByTime(ms: seq<Message>): (r: seq<Message>)
    ensures multiset(r) == multiset(ms)
    ensures SortedByTime(r)
  {
    if ms == [] then []
    else
      assert ms == ms[..|ms| - 1] + [ms[|ms| - 1]];
      InsertByTime(ms[|ms| - 1], SortByTime(ms[..|ms| - 1]))
  }

  /** Inserting a message not earlier than everything appends it. */
  lemma {:induction false} InsertLatest(m: Message, ms: seq<Message>)
    requires forall k :: 0 <= k < |ms| ==> ms[k].timestamp <= m.timestamp
    ensures InsertByTime(m, ms) == ms + [m]
  {
    if ms != [] {
      InsertLatest(m, ms[1..]);
      assert ms == [ms[0]] + ms[1..];
    }
  }

  /** Sorting leaves an already sorted sequence as it is, so equal timestamps
      keep their stored order and sorting twice is sorting once. */
  lemma {:induction false} SortSorted(ms: seq<Message>)
    requires SortedByTime(ms)
    ensures SortByTime(ms) == ms
  {
    if ms != [] {
      var init := ms[..|ms| - 1];
      assert SortedByTime(init);
      SortSorted(init);
      InsertLatest(ms[|ms| - 1], init);
      assert init + [ms[|ms| - 1]] == ms;
    }
  }

  lemma SortIdempotent(ms: seq<Message>)
    ensures SortByTime(SortByTime(ms)) == SortByTime(ms)
  {
    SortSorted(SortByTime(ms));
  }

  /** What a non-admin may read: their own messages and every admin message. */
  predicate VisibleTo(m: Message, uid: Id) {
    m.senderId == uid || m.isAdmin
  }

  function ListMessages(s: Store, header: Option<string>): (r: Reply<seq<Message>>)
    ensures r.Fail? <==> Authenticate(s.users, header).Denied?
    ensures r.Fail? ==> r.code == 401 && r.error == Authenticate(s.users, header).error
    ensures r.Ok? ==> r.code == 200 && SortedByTime(r.body)
    ensures r.Ok? && Authenticate(s.users, header).user.role == RoleAdmin ==>
      multiset(r.body) == multiset(s.messages)
    ensures r.Ok? && Authenticate(s.users, header).user.role != RoleAdmin ==>
      forall m :: m in r.body <==> m in s.messages && VisibleTo(m, Authenticate(s.users, header).user.id)
  {
    match Authenticate(s.users, header)
    case Denied(e) => Fail(401, e)
    case Granted(u) =>
      if u.role == RoleAdmin then Ok(200, SortByTime(s.messages))
      else
        var visible := Filter(s.messages, (m: Message) => VisibleTo(m, u.id));
        var r := SortByTime(visible);
        assert forall m :: m in r <==> m in multiset(visible);
        Ok(200, r)
  }

  /** A non-admin's listing holds each visible message as often as the store does. */
  lemma ListMessagesIsPermutation(s: Store, header: Option<string>)
    requires ListMessages(s, header).Ok?
    requires Authenticate(s.users, header).user.role != RoleAdmin
    ensures var uid := Authenticate(s.users, header).user.id;
      multiset(ListMessages(s, header).body) == multiset(Filter(s.messages, (m: Message) => VisibleTo(m, uid)))
  {
  }

  // ---------------------------------------------------------------------
  // DELETE /api/chat/:id

  /** `Chat.findById(id)`. */
  function FindMessage(ms: seq<Message>, id: Id): (r: Option<nat>)
    ensures r.Some? ==> r.value < |ms| && ms[r.value].id == id
    ensures r.None? <==> forall k :: 0 <= k < |ms| ==> ms[k].id != id
  {
    FindFirst(ms, (m: Message) => m.id == id)
  }

  /** The message's sender and admins may delete it. */
  predicate MayDelete(u: User, m: Message) {
    u.role == RoleAdmin || m.senderId == u.id
  }

  function DeleteMessage(s: Store, header: Option<string>, id: Id): (r: (Store, Reply<string>))
    ensures r.1.Fail? ==> r.0 == s
    ensures Authenticate(s.users, header).Denied? ==> r.1 == Fail(401, Authenticate(s.users, header).error)
    ensures r.1 == Fail(500, StoreError) <==> Authenticate(s.users, header).Granted? && !IsObjectId(id)
    ensures r.1 == Fail(404, MessageNotFound) <==> (
      && Authenticate(s.users, header).Granted? && IsObjectId(id)
      && FindMessage(s.messages, id).None?)
    ensures r.1 == Fail(403, NotAuthorized) <==> (
      && Authenticate(s.users, header).Granted? && IsObjectId(id)
      && FindMessage(s.messages, id).Some?
      && !MayDelete(Authenticate(s.users, header).user, s.messages[FindMessage(s.messages, id).value]))
    ensures r.1.Ok? <==> (
      && Authenticate(s.users, header).Granted? && IsObjectId(id)
      && FindMessage(s.messages, id).Some?
      && MayDelete(Authenticate(s.users, header).user, s.messages[FindMessage(s.messages, id).value]))
    ensures r.1.Ok? ==> (
      && r.1.code == 200 && r.1.body == MessageDeleted
      && r.0.users == s.users && r.0.projects == s.projects
      && r.0.messages == RemoveAt(s.messages, FindMessage(s.messages, id).value)
      && |r.0.messages| == |s.messages| - 1)
  {
    match Authenticate(s.users, header)
    case Denied(e) => (s, Fail(401, e))
    case Granted(u) =>
      if !IsObjectId(id) then (s, Fail(500, StoreError))
      else match FindMessage(s.messages, id)
        case None => (s, Fail(404, MessageNotFound))
        case Some(i) =>
          if !MayDelete(u, s.messages[i]) then (s, Fail(403, NotAuthorized))
          else (s.(messages := RemoveAt(s.messages, i)), Ok(200, MessageDeleted))
  }

  /** With unique ids, a successful delete removes exactly the message with
      that id, and it was the caller's own message or the caller is an admin. */
  lemma DeleteMessageRemovesExactly(s: Store, header: Option<string>, id: Id)
    requires MessageIdsUnique(s.messages)
    requires DeleteMessage(s, header, id).1.Ok?
    ensures DeleteMessage(s, header, id).0.messages == Filter(s.messages, (m: Message) => m.id != id)
    ensures forall k :: 0 <= k < |s.messages| && s.messages[k].id == id ==>
      MayDelete(Authenticate(s.users, header).user, s.messages[k])
  {
    var i := FindMessage(s.messages, id).value;
    RemoveAtIsFilter(s.messages, i, (m: Message) => m.id != id);
  }

  lemma DeleteMessagePreservesValidStore(s: Store, header: Option<string>, id: Id)
    requires ValidStore(s)
    ensures ValidStore(DeleteMessage(s, header, id).0)
  {
    var r := DeleteMessage(s, header, id);
    if r.1.Ok? {
      var i := FindMessage(s.messages, id).value;
      var ms := RemoveAt(s.messages, i);
      forall a, b | 0 <= a < b < |ms| ensures ms[a].id != ms[b].id {
        var a' := if a < i then a else a + 1;
        var b' := if b < i then b else b + 1;
        assert ms[a] == s.messages[a'] && ms[b] == s.messages[b'];
      }
    }
  }
}

=== FILE: chat_view.dfy ===
/** The chat panel (src/components/Chat.tsx): the selectors it applies to the
    fetched message list, the guard and the payload of a send, file
    selection, and which controls a message shows. The signed-in user is
    `me`: the id of the session user, `None` when there is none (JavaScript
    `currentUser?.id`). */
module ChatView {

  import opened Common
  import opened Records
  import Text
  import opened ClientSession

  const UnknownUser := "Unknown User"
  const Everyone := "everyone"
  /** The 10 MB upload limit of the file picker. */
  const MaxFileSize := 10 * 1024 * 1024

  /** The two views an admin switches between. */
  datatype AdminView = Broadcast | UserView

  /** An entry of the recipient selector. */
  datatype ChatUser = ChatUser(id: Id, name: string)

  // ---------------------------------------------------------------------
  // the distinct senders (`users`)

  /** The index of the first message `id` sent, if any. */
  function FirstSent(ms: seq<Message>, id: Id): (r: Option<nat>)
    ensures r.Some? ==> r.value < |ms| && ms[r.value].senderId == id
    ensures r.Some? ==> forall t :: 0 <= t < r.value ==> ms[t].senderId != id
    ensures r.None? <==> forall t :: 0 <= t < |ms| ==> ms[t].senderId != id
  {
    FindFirst(ms, (m: Message) => m.senderId == id)
  }

  /** `j` is the index of the first message `id` sent. */
  predicate FirstAt(ms: seq<Message>, id: Id, j: nat) {
    j < |ms| && ms[j].senderId == id && forall t :: 0 <= t < j ==> ms[t].senderId != id
  }

  lemma FirstSentAt(ms: seq<Message>, id: Id, j: nat)
    requires FirstAt(ms, id, j)
    ensures FirstSent(ms, id) == Some(j)
  {
  }

  /** The ids of the selector entries, in order. */
  function Ids(users: seq<ChatUser>): (r: seq<Id>)
    ensures |r| == |users| && forall k :: 0 <= k < |users| ==> r[k] == users[k].id
  {
    seq(|users|, k requires 0 <= k < |users| => users[k].id)
  }

  /** `Array.from(new Set(senderIds)).map(...)`: every sender once, in the
      order of their first message, named by that message's sender name or
      "Unknown User" when it is empty. */
  method DistinctSenders(ms: seq<Message>) returns (users: seq<ChatUser>)
    ensures forall k :: 0 <= k < |users| ==> FirstSent(ms, users[k].id).Some?
    ensures forall k :: 0 <= k < |users| ==>
      users[k].name == OrElse(ms[FirstSent(ms, users[k].id).value].senderName, UnknownUser)
    ensures forall a, b :: 0 <= a < b < |users| ==>
      FirstSent(ms, users[a].id).value < FirstSent(ms, users[b].id).value
    ensures forall j :: 0 <= j < |ms| ==> ms[j].senderId in Ids(users)
  {
    users := [];
    ghost var pos: seq<nat> := [];
    var i := 0;
    while i < |ms|
      invariant 0 <= i <= |ms|
      invariant |pos| == |users|
      invariant forall k :: 0 <= k < |users| ==> pos[k] < i && FirstAt(ms, users[k].id, pos[k])
      invariant forall k :: 0 <= k < |users| ==> users[k].name == OrElse(ms[pos[k]].senderName, UnknownUser)
      invariant forall a, b :: 0 <= a < b < |users| ==> pos[a] < pos[b]
      invariant forall j :: 0 <= j < i ==> ms[j].senderId in Ids(users)
    {
      var id := ms[i].senderId;
      if id !in Ids(users) {
        assert FirstAt(ms, id, i);
        var entry := ChatUser(id, OrElse(ms[i].senderName, UnknownUser));
        assert Ids(users + [entry]) == Ids(users) + [id];
        users := users + [entry];
        pos := pos + [i];
      }
      i := i + 1;
    }
    forall k | 0 <= k < |users| ensures FirstSent(ms, users[k].id) == Some(pos[k]) {
      FirstSentAt(ms, users[k].id, pos[k]);
    }
  }

  // ---------------------------------------------------------------------
  // the fetch filter

  /** `!message.recipientId`. */
  predicate NoRecipient(m: Message) {
    !Truthy(m.recipientId)
  }

  /** What a non-admin keeps of the fetched list: their own messages, admin
      messages to everyone or to them, and non-admin messages to everyone. */
  predicate KeptOnFetch(m: Message, me: Option<Id>) {
    || me == Some(m.senderId)
    || (m.isAdmin && (NoRecipient(m) || m.recipientId == me))
    || (NoRecipient(m) && !m.isAdmin)
  }

  function FetchFilter(ms: seq<Message>, isAdmin: bool, me: Option<Id>): (r: seq<Message>)
    ensures isAdmin ==> r == ms
    ensures !isAdmin ==> forall m :: m in r <==> m in ms && KeptOnFetch(m, me)
    ensures (forall k :: 0 <= k < |ms| ==> KeptOnFetch(ms[k], me)) ==> r == ms
    ensures |r| <= |ms|
  {
    Filter(ms, (m: Message) => isAdmin || KeptOnFetch(m, me))
  }

  lemma FetchFilterInOrder(ms: seq<Message>, isAdmin: bool, me: Option<Id>)
    ensures IsSubsequence(FetchFilter(ms, isAdmin, me), ms)
  {
    FilterIsSubsequence(ms, (m: Message) => isAdmin || KeptOnFetch(m, me));
  }

  // ---------------------------------------------------------------------
  // choosing a file

  /** A file picked in the browser: its name, MIME type, size in bytes, and
      the data URL the preview reader produces. */
  datatype Picked = Picked(name: string, mimeType: string, size: int, dataUrl: string)

  /** `handleFileSelect`: a file over the limit is refused (with a toast) and
      the earlier selection stays; otherwise it becomes the selection. */
  function SelectFile(selected: Option<Picked>, chosen: Option<Picked>): (r: (Option<Picked>, bool))
    ensures r.1 <==> chosen.Some? && chosen.value.size > MaxFileSize
    ensures chosen.Some? && chosen.value.size <= MaxFileSize ==> r.0 == chosen
    ensures chosen.None? || chosen.value.size > MaxFileSize ==> r.0 == selected
    ensures r.0.Some? ==> r.0 == selected || r.0.value.size <= MaxFileSize
  {
    match chosen
    case None => (selected, false)
    case Some(f) => if f.size > MaxFileSize then (selected, true) else (Some(f), false)
  }

  // ---------------------------------------------------------------------
  // sending

  /** Everything `handleSendMessage` reads. */
  datatype Composer = Composer(
    text: string,
    selectedFile: bool,
    preview: Option<Picked>,
    isAdmin: bool,
    view: AdminView,
    selectedUser: string,
    replyTo: Option<Message>)

  /** An admin writing to one selected user. */
  predicate ToOneUser(c: Composer) {
    c.isAdmin && c.view == UserView && c.selectedUser != Everyone
  }

  /** The JSON body a send posts, or `None` when nothing is sent: no session,
      or whitespace-only text and no file. */
  function Compose(c: Composer, session: Option<Session>): (r: Option<ChatBody>)
    ensures r.None? <==> session.None? || (Text.Trim(c.text) == "" && !c.selectedFile)
    ensures r.Some? ==> (
      var b := r.value;
      && b.content == Some(if ToOneUser(c) then "  " + Text.Trim(c.text) else Text.Trim(c.text))
      && b.senderId == Some(session.value.id)
      && b.senderName == Some(SessionName(session.value))
      && b.isAdmin == Some(c.isAdmin)
      && b.timestamp.None?)
    ensures r.Some? ==> (r.value.recipientId.Some? <==> c.isAdmin && c.view == UserView)
    ensures r.Some? && r.value.recipientId.Some? ==> r.value.recipientId.value == c.selectedUser
    ensures r.Some? ==> r.value.isBroadcast == Some(c.isAdmin && c.view == Broadcast)
    ensures r.Some? ==> (r.value.replyTo.Some? <==> c.replyTo.Some?)
    ensures r.Some? && c.replyTo.Some? ==> (
      var q := r.value.replyTo.value;
      && q.senderId == c.replyTo.value.senderId
      && q.senderName == c.replyTo.value.senderName
      && q.content == c.replyTo.value.content)
    ensures r.Some? && c.preview.Some? ==> (
      && r.value.fileUrl == Some(c.preview.value.dataUrl)
      && r.value.fileName == Some(c.preview.value.name)
      && r.value.fileType == Some(c.preview.value.mimeType)
      && r.value.fileSize == Some(c.preview.value.size))
    ensures r.Some? && c.preview.None? ==> (
      && r.value.fileUrl.None? && r.value.fileName.None?
      && r.value.fileType.None? && r.value.fileSize.None?)
  {
    if Text.Trim(c.text) == "" && !c.selectedFile then None
    else match session
      case None => None
      case Some(u) =>
        var t := Text.Trim(c.text);
        var p := c.preview;
        Some(ChatBody(
          Some(if ToOneUser(c) then "  " + t else t),
          if p.Some? then Some(p.value.dataUrl) else None,
          if p.Some? then Some(p.value.name) else None,
          if p.Some? then Some(p.value.mimeType) else None,
          if p.Some? then Some(p.value.size) else None,
          Some(c.isAdmin),
          Some(u.id),
          Some(SessionName(u)),
          if c.isAdmin && c.view == UserView then Some(c.selectedUser) else None,
          Some(c.isAdmin && c.view == Broadcast),
          if c.replyTo.Some? then Some(ReplyRef(c.replyTo.value.senderId, c.replyTo.value.senderName, c.replyTo.value.content)) else None,
          None))
  }

  // ---------------------------------------------------------------------
  // the inbox and chat tabs

  /** A direct admin message addressed to `me`. */
  predicate InInbox(m: Message, me: Option<Id>) {
    m.isAdmin && !m.isBroadcast && m.recipientId == me
  }

  function Inbox(ms: seq<Message>, isAdmin: bool, me: Option<Id>): (r: seq<Message>)
    ensures isAdmin ==> r == []
    ensures !isAdmin ==> forall m :: m in r <==> m in ms && InInbox(m, me)
  {
    if isAdmin then [] else Filter(ms, (m: Message) => InInbox(m, me))
  }

  lemma InboxInOrder(ms: seq<Message>, isAdmin: bool, me: Option<Id>)
    ensures IsSubsequence(Inbox(ms, isAdmin, me), ms)
  {
    if !isAdmin {
      FilterIsSubsequence(ms, (m: Message) => InInbox(m, me));
    }
  }

  /** The `[to:<id>]` tag of a message meant for `me`; an absent id prints as
      `undefined` in the template string. */
  function ToTag(me: Option<Id>): string {
    "[to:" + me.GetOr("undefined") + "]"
  }

  /** What the chat tab shows a non-admin: their own messages, and admin
      messages tagged for them or not tagged for anyone. */
  predicate OnUserChatTab(m: Message, me: Option<Id>) {
    || me == Some(m.senderId)
    || (m.isAdmin && (Text.StartsWith(m.content, ToTag(me)) || !Text.StartsWith(m.content, "[to:")))
  }

  /** What the chat tab shows an admin in the given view. */
  predicate OnAdminChatTab(m: Message, view: AdminView) {
    match view
    case Broadcast => m.isAdmin && m.isBroadcast
    case UserView => true
  }

  function ChatTab(ms: seq<Message>, isAdmin: bool, view: AdminView, me: Option<Id>): (r: seq<Message>)
    ensures isAdmin && view == UserView ==> r == ms
    ensures isAdmin ==> forall m :: m in r <==> m in ms && OnAdminChatTab(m, view)
    ensures !isAdmin ==> forall m :: m in r <==> m in ms && OnUserChatTab(m, me)
  {
    Filter(ms, (m: Message) => if isAdmin then OnAdminChatTab(m, view) else OnUserChatTab(m, me))
  }

  lemma ChatTabInOrder(ms: seq<Message>, isAdmin: bool, view: AdminView, me: Option<Id>)
    ensures IsSubsequence(ChatTab(ms, isAdmin, view, me), ms)
  {
    FilterIsSubsequence(ms, (m: Message) => if isAdmin then OnAdminChatTab(m, view) else OnUserChatTab(m, me));
  }

  // ---------------------------------------------------------------------
  // local delete and per-message controls

  /** The local list after the server confirmed deleting `id`. */
  function AfterDelete(ms: seq<Message>, id: Id): (r: seq<Message>)
    ensures forall m :: m in r <==> m in ms && m.id != id
    ensures IsSubsequence(r, ms)
  {
    FilterIsSubsequence(ms, (m: Message) => m.id != id);
    Filter(ms, (m: Message) => m.id != id)
  }

  /** Exactly as many messages leave the list as carried the id. */
  lemma AfterDeleteCount(ms: seq<Message>, id: Id)
    ensures |AfterDelete(ms, id)| + Count(ms, (m: Message) => m.id == id) == |ms|
  {
    CountSplit(ms, (m: Message) => m.id != id, (m: Message) => m.id == id, (m: Message) => true);
  }

  /** The delete button: for admins, and for the sender of the message. */
  predicate ShowDelete(isAdmin: bool, me: Option<Id>, m: Message) {
    isAdmin || me == Some(m.senderId)
  }

  /** The reply button: only an admin, and only on a non-admin message. */
  predicate ShowReply(isAdmin: bool, m: Message) {
    isAdmin && !m.isAdmin
  }

  // ---------------------------------------------------------------------
  // file icons

  datatype FileIcon = ImageIcon | VideoIcon | AudioIcon | PdfIcon | WordIcon | SheetIcon | GenericIcon

  /** `getFileIcon`: the MIME-type prefixes first, then the substrings, in
      this priority order. */
  function IconFor(fileType: string): (r: FileIcon)
    ensures r == ImageIcon <==> Text.StartsWith(fileType, "image/")
    ensures r == VideoIcon <==> !Text.StartsWith(fileType, "image/") && Text.StartsWith(fileType, "video/")
    ensures r == AudioIcon <==> (
      && !Text.StartsWith(fileType, "image/") && !Text.StartsWith(fileType, "video/")
      && Text.StartsWith(fileType, "audio/"))
    ensures r == PdfIcon ==> Text.Contains(fileType, "pdf")
    ensures r == WordIcon ==> Text.Contains(fileType, "word") && !Text.Contains(fileType, "pdf")
    ensures r == SheetIcon ==> (
      && (Text.Contains(fileType, "excel") || Text.Contains(fileType, "sheet"))
      && !Text.Contains(fileType, "pdf") && !Text.Contains(fileType, "word"))
    ensures r == GenericIcon <==> (
      && !Text.StartsWith(fileType, "image/") && !Text.StartsWith(fileType, "video/")
      && !Text.StartsWith(fileType, "audio/")
      && !Text.Contains(fileType, "pdf") && !Text.Contains(fileType, "word")
      && !Text.Contains(fileType, "excel") && !Text.Contains(fileType, "sheet"))
  {
    if Text.StartsWith(fileType, "image/") then ImageIcon
    else if Text.StartsWith(fileType, "video/") then VideoIcon
    else if Text.StartsWith(fileType, "audio/") then AudioIcon
    else if Text.Contains(fileType, "pdf") then PdfIcon
    else if Text.Contains(fileType, "word") then WordIcon
    else if Text.Contains(fileType, "excel") || Text.Contains(fileType, "sheet") then SheetIcon
    else GenericIcon
  }
}

=== FILE: common.dfy ===
/** Shared vocabulary: optional values, HTTP replies, and order-preserving
    filtering over sequences (the model of JavaScript's `Array.filter`). */
module Common {

  /** A value that may be absent: `undefined`/`null` in the source. */
  datatype Option<+T> = None | Some(value: T) {
    function GetOr(default: T): T {
      match this
      case Some(v) => v
      case None => default
    }
  }

  /** What an HTTP handler answers: a success status with a body, or an
      error status with the message of the JSON `{ error }` body. */
  datatype Reply<+T> = Ok(code: int, body: T) | Fail(code: int, error: string)

  /** A document id (the hexadecimal text of a MongoDB ObjectId). */
  type Id = string

  /** JavaScript's `a || b` on two strings: the empty string is falsy. */
  function OrElse(a: string, b: string): string {
    if a != "" then a else b
  }

  /** JavaScript truthiness of an optional string (`undefined` and `''` are falsy). */
  predicate Truthy(s: Option<string>) {
    s.Some? && s.value != ""
  }

  /** `xs.filter(p)`: the elements satisfying `p`, in their original order. */
  function Filter<T(==,!new)>(xs: seq<T>, p: T -> bool): (r: seq<T>)
    ensures |r| <= |xs|
    ensures forall x :: x in r <==> x in xs && p(x)
    ensures forall i :: 0 <= i < |r| ==> p(r[i])
    ensures (forall i :: 0 <= i < |xs| ==> p(xs[i])) ==> r == xs
  {
    if xs == [] then []
    else if p(xs[0]) then [xs[0]] + Filter(xs[1..], p)
    else Filter(xs[1..], p)
  }

  /** `xs.filter(p).length`. */
  function Count<T(==,!new)>(xs: seq<T>, p: T -> bool): nat {
    |Filter(xs, p)|
  }

  /** `a` can be obtained from `b` by deleting elements. */
  predicate IsSubsequence<T(==)>(a: seq<T>, b: seq<T>)
    decreases |b|
  {
    if a == [] then true
    else if b == [] then false
    else if a[0] == b[0] then IsSubsequence(a[1..], b[1..])
    else IsSubsequence(a, b[1..])
  }

  lemma {:induction false} FilterIsSubsequence<T(!new)>(xs: seq<T>, p: T -> bool)
    ensures IsSubsequence(Filter(xs, p), xs)
  {
    if xs != [] {
      FilterIsSubsequence(xs[1..], p);
    }
  }

  /** Filtering twice is filtering once by the conjunction. */
  lemma {:induction false} FilterFilter<T(!new)>(xs: seq<T>, p: T -> bool, q: T -> bool, pq: T -> bool)
    requires forall x :: pq(x) == (p(x) && q(x))
    ensures Filter(Filter(xs, p), q) == Filter(xs, pq)
  {
    if xs != [] {
      FilterFilter(xs[1..], p, q, pq);
    }
  }

  /** Two predicates that agree on the elements give the same filter. */
  lemma {:induction false} FilterCongruent<T(!new)>(xs: seq<T>, p: T -> bool, q: T -> bool)
    requires forall i :: 0 <= i < |xs| ==> p(xs[i]) == q(xs[i])
    ensures Filter(xs, p) == Filter(xs, q)
  {
    if xs != [] {
      FilterCongruent(xs[1..], p, q);
    }
  }

  /** Filtering a concatenation filters each part. */
  lemma {:induction false} FilterAppend<T(!new)>(xs: seq<T>, ys: seq<T>, p: T -> bool)
    ensures Filter(xs + ys, p) == Filter(xs, p) + Filter(ys, p)
  {
    if xs == [] {
      assert xs + ys == ys;
    } else {
      assert (xs + ys)[1..] == xs[1..] + ys;
      FilterAppend(xs[1..], ys, p);
    }
  }

  /** Counting by two exclusive predicates adds up to counting by their disjunction. */
  lemma {:induction false} CountSplit<T(!new)>(xs: seq<T>, p: T -> bool, q: T -> bool, pq: T -> bool)
    requires forall x :: !(p(x) && q(x))
    requires forall x :: pq(x) == (p(x) || q(x))
    ensures Count(xs, p) + Count(xs, q) == Count(xs, pq)
  {
    if xs != [] {
      CountSplit(xs[1..], p, q, pq);
    }
  }

  /** Index of the first element of `xs` satisfying `p` (`findOne` / `find`). */
  function FindFirst<T>(xs: seq<T>, p: T -> bool): (r: Option<nat>)
    ensures r.Some? ==> r.value < |xs| && p(xs[r.value])
    ensures r.Some? ==> forall k :: 0 <= k < r.value ==> !p(xs[k])
    ensures r.None? <==> forall k :: 0 <= k < |xs| ==> !p(xs[k])
  {
    if xs == [] then None
    else if p(xs[0]) then Some(0)
    else match FindFirst(xs[1..], p)
      case None => None
      case Some(k) => Some(k + 1)
  }

  /** `xs` without its element at index `i` (`findOneAndDelete`). */
  function RemoveAt<T>(xs: seq<T>, i: nat): (r: seq<T>)
    requires i < |xs|
    ensures |r| == |xs| - 1
    ensures forall k :: 0 <= k < i ==> r[k] == xs[k]
    ensures forall k :: i <= k < |r| ==> r[k] == xs[k + 1]
  {
    xs[..i] + xs[i + 1..]
  }

  /** Removing the one element that fails `p` is filtering by `p`. */
  lemma RemoveAtIsFilter<T(!new)>(xs: seq<T>, i: nat, p: T -> bool)
    requires i < |xs| && !p(xs[i])
    requires forall k :: 0 <= k < |xs| && k != i ==> p(xs[k])
    ensures RemoveAt(xs, i) == Filter(xs, p)
  {
    var a, b := xs[..i], xs[i + 1..];
    SplitAround(xs, i);
    FilterAppend(a, [xs[i]] + b, p);
    FilterAppend([xs[i]], b, p);
    assert Filter([xs[i]], p) == [];
    KeptAround(xs, i, p);
    assert Filter(xs, p) == a + ([] + b);
  }

  /** The elements before and after index `i` all pass `p`. */
  lemma KeptAround<T(!new)>(xs: seq<T>, i: nat, p: T -> bool)
    requires i < |xs|
    requires forall k :: 0 <= k < |xs| && k != i ==> p(xs[k])
    ensures Filter(xs[..i], p) == xs[..i]
    ensures Filter(xs[i + 1..], p) == xs[i + 1..]
  {
    var b := xs[i + 1..];
    assert forall k :: 0 <= k < i ==> p(xs[..i][k]);
    forall k | 0 <= k < |b| ensures p(b[k]) {
      assert b[k] == xs[i + 1 + k];
    }
  }

  lemma SplitAround<T>(xs: seq<T>, i: nat)
    requires i < |xs|
    ensures xs == xs[..i] + ([xs[i]] + xs[i + 1..])
  {
    assert xs[..i] + [xs[i]] == xs[..i + 1];
    assert xs[..i + 1] + xs[i + 1..] == xs;
  }

  /** Removing one element removes it from the filtered sequence too, when it
      passes the filter. */
  lemma {:induction false} FilterRemoveAtCount<T(!new)>(xs: seq<T>, i: nat, p: T -> bool)
    requires i < |xs|
    ensures |Filter(RemoveAt(xs, i), p)| == |Filter(xs, p)| - (if p(xs[i]) then 1 else 0)
    decreases |xs|
  {
    if i == 0 {
      assert RemoveAt(xs, i) == xs[1..];
    } else {
      var ys := RemoveAt(xs[1..], i - 1);
      assert RemoveAt(xs, i) == [xs[0]] + ys;
      assert ([xs[0]] + ys)[0] == xs[0] && ([xs[0]] + ys)[1..] == ys;
      FilterRemoveAtCount(xs[1..], i - 1, p);
    }
  }

  /** Filtering out one element shortens the sequence by at least one. */
  lemma {:induction false} FilterDropsOne<T(!new)>(xs: seq<T>, p: T -> bool, i: nat)
    requires i < |xs| && !p(xs[i])
    ensures |Filter(xs, p)| <= |xs| - 1
    decreases |xs|
  {
    if i > 0 {
      FilterDropsOne(xs[1..], p, i - 1);
    }
  }

  /** Filtering out two elements shortens it by at least two. */
  lemma {:induction false} FilterDropsTwo<T(!new)>(xs: seq<T>, p: T -> bool, i: nat, j: nat)
    requires i < j < |xs| && !p(xs[i]) && !p(xs[j])
    ensures |Filter(xs, p)| <= |xs| - 2
    decreases |xs|
  {
    if i > 0 {
      FilterDropsTwo(xs[1..], p, i - 1, j - 1);
    } else {
      FilterDropsOne(xs[1..], p, j - 1);
    }
  }
}

=== FILE: dashboard.dfy ===
/** The user's dashboard (src/pages/Dashboard.tsx): the page state, what a
    click on a week does, the bodies the two submit handlers send to
    `POST /api/projects`, the delete-by-week handler, and the statistics. */
module Dashboard {

  import opened Common
  import opened Records
  import opened ClientSession
  import ProjectForm
  import WeekGrid
  import ProjectRoutes

  /** The page state that the handlers change. */
  datatype DashState = DashState(
    showModal: bool,
    showForm: bool,
    selectedWeek: Option<int>,
    expandedWeek: Option<int>,
    projects: seq<Project>)

  /** `handleWeekClick`: a week that has a project opens the modal, an empty
      week opens (expands) the inline form. */
  function WeekClick(st: DashState, week: int): (st': DashState)
    ensures st'.selectedWeek == Some(week)
    ensures st'.projects == st.projects
    ensures st'.showModal <==> WeekGrid.WeekProject(st.projects, week).Some?
    ensures st'.showForm <==> WeekGrid.WeekProject(st.projects, week).None?
    ensures st'.expandedWeek.Some? <==> WeekGrid.WeekProject(st.projects, week).None?
    ensures st'.expandedWeek.Some? ==> st'.expandedWeek.value == week
  {
    if WeekGrid.WeekProject(st.projects, week).Some? then
      st.(selectedWeek := Some(week), showModal := true, showForm := false, expandedWeek := None)
    else
      st.(selectedWeek := Some(week), showForm := true, showModal := false, expandedWeek := Some(week))
  }

  /** A click on an empty week turns that week's tile into the open chevron;
      a click on a week with a project leaves no tile open. */
  lemma WeekClickTile(st: DashState, week: int)
    ensures var st' := WeekClick(st, week);
      WeekGrid.WeekProject(st.projects, week).None? ==>
        WeekGrid.RenderTile(st'.projects, week, st'.expandedWeek).icon == WeekGrid.ChevronUp
    ensures var st' := WeekClick(st, week);
      forall w :: WeekGrid.WeekStatus(st'.projects, w) == NotStarted && w != week ==>
        WeekGrid.RenderTile(st'.projects, w, st'.expandedWeek).icon == WeekGrid.PlusSign
  {
  }

  /** `handleProjectFormSubmit`'s body: the form's fields, the expanded week,
      status "Under Review", and the session's id and name. */
  function FormSubmission(data: ProjectForm.Submitted, expandedWeek: Option<int>, u: Session)
    : (b: ProjectBody)
    ensures b.title == Some(data.title) && b.description == Some(data.description)
    ensures b.techStack == Some(data.techStack)
    ensures b.week == expandedWeek
    ensures b.status == Some(UnderReview)
    ensures b.githubRepo == data.githubRepo && b.url == data.url
    ensures b.userId == Some(u.id)
    ensures b.userName == Some(SessionName(u))
    ensures b.isHidden.None?
  {
    ProjectBody(Some(data.title), Some(data.description), Some(data.techStack), expandedWeek,
      Some(UnderReview), data.githubRepo, Some(u.id), Some(SessionName(u)), data.url, None)
  }

  /** The data the project modal hands to `handleProjectModalSubmit`. */
  datatype ModalData = ModalData(title: string, description: string, githubRepo: string, url: string)

  const DefaultTechStack := "React, Node.js"

  /** `handleProjectModalSubmit`'s body: a fixed tech stack and the selected week. */
  function ModalSubmission(data: ModalData, selectedWeek: Option<int>, u: Session): (b: ProjectBody)
    ensures b.title == Some(data.title) && b.description == Some(data.description)
    ensures b.techStack == Some(DefaultTechStack)
    ensures b.week == selectedWeek
    ensures b.status == Some(UnderReview)
    ensures b.githubRepo == Some(data.githubRepo) && b.url == Some(data.url)
    ensures b.userId == Some(u.id)
    ensures b.userName == Some(SessionName(u))
  {
    ProjectBody(Some(data.title), Some(data.description), Some(DefaultTechStack), selectedWeek,
      Some(UnderReview), Some(data.githubRepo), Some(u.id), Some(SessionName(u)), Some(data.url), None)
  }

  /** After `POST` succeeds from the form: the new project is appended and the
      form closes. */
  function AfterFormCreated(st: DashState, p: Project): (st': DashState)
    ensures st'.projects == st.projects + [p]
    ensures !st'.showForm && st'.expandedWeek.None?
    ensures st'.showModal == st.showModal && st'.selectedWeek == st.selectedWeek
  {
    st.(projects := st.projects + [p], showForm := false, expandedWeek := None)
  }

  /** After `POST` succeeds from the modal: the new project is appended and the
      modal closes. */
  function AfterModalCreated(st: DashState, p: Project): (st': DashState)
    ensures st'.projects == st.projects + [p]
    ensures !st'.showModal
    ensures st'.showForm == st.showForm && st'.expandedWeek == st.expandedWeek
  {
    st.(projects := st.projects + [p], showModal := false)
  }

  /** The form's `onCancel`: close it and collapse the week. */
  function FormCancel(st: DashState): (st': DashState)
    ensures !st'.showForm && st'.expandedWeek.None?
    ensures st'.projects == st.projects && st'.showModal == st.showModal
  {
    st.(showForm := false, expandedWeek := None)
  }

  /** A week whose form was opened and whose project is then created no
      longer counts as empty. */
  lemma CreatedWeekHasProject(st: DashState, week: int, p: Project)
    requires p.week == week
    ensures WeekGrid.WeekProject(AfterFormCreated(WeekClick(st, week), p).projects, week).Some?
  {
    var ps := AfterFormCreated(WeekClick(st, week), p).projects;
    assert ps[|ps| - 1] == p;
  }

  // ---------------------------------------------------------------------
  // handleDeleteProject

  /** The id sent to `DELETE /api/projects/:id`: the first project of that
      week, or no request at all. */
  function DeleteRequest(ps: seq<Project>, week: int): (id: Option<Id>)
    ensures id.None? <==> WeekGrid.WeekProject(ps, week).None?
    ensures id.Some? ==> id.value == WeekGrid.WeekProject(ps, week).value.id
  {
    match WeekGrid.WeekProject(ps, week)
    case None => None
    case Some(p) => Some(p.id)
  }

  /** The week is not a project's own key, so the list after a successful
      delete drops every project of that week. */
  function AfterDeleteByWeek(ps: seq<Project>, week: int): (r: seq<Project>)
    ensures forall p :: p in r <==> p in ps && p.week != week
    ensures IsSubsequence(r, ps)
  {
    FilterIsSubsequence(ps, (p: Project) => p.week != week);
    Filter(ps, (p: Project) => p.week != week)
  }

  /** The list after a successful delete as evidently intended: only the
      project whose id was sent to the server leaves. */
  function AfterDeleteById(ps: seq<Project>, id: Id): (r: seq<Project>)
    ensures forall p :: p in r <==> p in ps && p.id != id
    ensures IsSubsequence(r, ps)
  {
    FilterIsSubsequence(ps, ProjectRoutes.NotId(id));
    Filter(ps, ProjectRoutes.NotId(id))
  }

  /** When two listed projects share a week, the page drops both although the
      request deleted only one. */
  lemma DeleteByWeekDropsMore(ps: seq<Project>, week: int, i: nat, j: nat)
    requires i < j < |ps| && ps[i].week == week && ps[j].week == week
    ensures |AfterDeleteByWeek(ps, week)| <= |ps| - 2
  {
    FilterDropsTwo(ps, (p: Project) => p.week != week, i, j);
  }

  // ---------------------------------------------------------------------
  // Statistics

  predicate IsApproved(p: Project) {
    p.status == Approved
  }

  /** `completedWeeks`: the number of approved projects. */
  function Completed(ps: seq<Project>): (c: nat)
    ensures c == Count(ps, IsApproved)
    ensures c <= |ps|
    ensures c == 0 <==> forall p :: p in ps ==> p.status != Approved
  {
    ApprovedFilterEmpty(ps);
    |Filter(ps, IsApproved)|
  }

  /** No project survives the approval filter exactly when none is approved. */
  lemma ApprovedFilterEmpty(ps: seq<Project>)
    ensures Filter(ps, IsApproved) == [] <==> forall p :: p in ps ==> p.status != Approved
  {
    var f := Filter(ps, IsApproved);
    if f != [] {
      assert f[0] in f;
    }
  }

  /** `Math.round((completedWeeks / 52) * 100)`, with JavaScript's rounding
      (half up) of the exact quotient. */
  function CompletionRate(c: nat): (r: int)
    ensures r == (100 * c + 26) / 52
  {
    RoundIsDivision(c);
    ((c as real) / 52.0 * 100.0 + 0.5).Floor
  }

  lemma RoundIsDivision(c: nat)
    ensures ((c as real) / 52.0 * 100.0 + 0.5).Floor == (100 * c + 26) / 52
  {
    var n := 100 * c + 26;
    var q := n / 52;
    var rem := n % 52;
    assert n == 52 * q + rem && 0 <= rem < 52;
    var x := (c as real) / 52.0 * 100.0 + 0.5;
    assert x == (n as real) / 52.0;
    assert (n as real) == 52.0 * (q as real) + (rem as real);
    assert x == (q as real) + (rem as real) / 52.0;
    assert (q as real) <= x < (q as real) + 1.0;
  }

  /** The percentage stays within 0..100 while at most 52 weeks are
      approved, and grows with the number approved. */
  lemma CompletionRateBounds(c: nat, d: nat)
    requires c <= d
    ensures 0 <= CompletionRate(c) <= CompletionRate(d)
    ensures d <= 52 ==> CompletionRate(d) <= 100
    ensures CompletionRate(0) == 0 && CompletionRate(52) == 100
  {
  }
}

=== FILE: project_form.dfy ===
/** The new-project form (src/components/ProjectForm.tsx): three text fields,
    a submit that hands them to the page, and a cancel. Each handler is
    modelled as the ordered list of effects it performs. */
module ProjectForm {

  import opened Common

  /** The form's fields. */
  datatype Fields = Fields(title: string, description: string, techStack: string)

  /** What `onSubmit` receives; the form never fills the optional fields. */
  datatype Submitted = Submitted(
    title: string,
    description: string,
    techStack: string,
    githubRepo: Option<string>,
    url: Option<string>)

  /** One effect of a handler, in the order it happens. */
  datatype Effect = SetFields(fields: Fields) | CallSubmit(data: Submitted) | CallCancel

  const Empty := Fields("", "", "")

  /** The fields after the effects have run. */
  function Apply(f: Fields, effects: seq<Effect>): Fields
    decreases |effects|
  {
    if effects == [] then f
    else
      var g := if effects[0].SetFields? then effects[0].fields else f;
      Apply(g, effects[1..])
  }

  /** `handleSubmit`: nothing when a field is empty; otherwise the three
      fields go to `onSubmit` and then the form is cleared. */
  function Submit(f: Fields): (effects: seq<Effect>)
    ensures effects == [] <==> f.title == "" || f.description == "" || f.techStack == ""
    ensures effects != [] ==> (
      && |effects| == 2
      && effects[0] == CallSubmit(Submitted(f.title, f.description, f.techStack, None, None))
      && effects[1] == SetFields(Empty))
  {
    if f.title == "" || f.description == "" || f.techStack == "" then []
    else [CallSubmit(Submitted(f.title, f.description, f.techStack, None, None)), SetFields(Empty)]
  }

  /** `handleCancel`: clear the form, then call `onCancel`. */
  function Cancel(f: Fields): (effects: seq<Effect>)
    ensures |effects| == 2 && effects[0] == SetFields(Empty) && effects[1] == CallCancel
  {
    [SetFields(Empty), CallCancel]
  }

  /** A submit that goes through, and any cancel, leave the form empty; a
      refused submit leaves it as it was. */
  lemma HandlersReset(f: Fields)
    ensures Submit(f) != [] ==> Apply(f, Submit(f)) == Empty
    ensures Submit(f) == [] ==> Apply(f, Submit(f)) == f
    ensures Apply(f, Cancel(f)) == Empty
  {
    var s := Submit(f);
    if s != [] {
      assert Apply(f, s) == Apply(f, s[1..]);
      assert Apply(f, s[1..]) == Apply(Empty, s[2..]);
    }
    var c := Cancel(f);
    assert Apply(f, c) == Apply(Empty, c[1..]);
    assert Apply(Empty, c[1..]) == Apply(Empty, c[2..]);
  }

  /** What the form hands over always has all three fields and never the
      optional ones. */
  lemma SubmittedShape(f: Fields)
    requires Submit(f) != []
    ensures var d := Submit(f)[0].data;
      d.title != "" && d.description != "" && d.techStack != "" && d.githubRepo.None? && d.url.None?
  {
  }
}

=== FILE: project_routes.dfy ===
/** The project routes of server.mjs. Every route first runs the token
    middleware; a project belongs to the user whose id is its `userId`, and
    the routes only ever reach the caller's own projects. */
module ProjectRoutes {

  import opened Common
  import opened Records
  import opened Schema
  import opened Auth

  const InvalidProjectId := "Invalid project ID"
  const ProjectNotFound := "Project not found"
  const ProjectDeleted := "Project deleted successfully"
  /** The text of a store error (validation, duplicate key, cast) is not modelled. */
  const StoreError := "store error"

  predicate OwnedBy(p: Project, uid: Id) {
    p.userId == uid
  }

  /** The query `{ userId: uid }` as a predicate. */
  function Owns(uid: Id): Project -> bool {
    (p: Project) => OwnedBy(p, uid)
  }

  /** Every project but the one with this id. */
  function NotId(id: Id): Project -> bool {
    (p: Project) => p.id != id
  }

  /** `Project.findOne({ _id: id, userId: uid })`. */
  function FindOwned(ps: seq<Project>, id: Id, uid: Id): (r: Option<nat>)
    ensures r.Some? ==> r.value < |ps| && ps[r.value].id == id && OwnedBy(ps[r.value], uid)
    ensures r.None? <==> forall k :: 0 <= k < |ps| ==> ps[k].id != id || !OwnedBy(ps[k], uid)
  {
    FindFirst(ps, (p: Project) => p.id == id && OwnedBy(p, uid))
  }

  // ---------------------------------------------------------------------
  // GET /api/projects

  function ListProjects(s: Store, header: Option<string>): (r: Reply<seq<Project>>)
    ensures r.Fail? <==> Authenticate(s.users, header).Denied?
    ensures r.Fail? ==> r.code == 401 && r.error == Authenticate(s.users, header).error
    ensures r.Ok? ==> r.code == 200
    ensures r.Ok? ==> forall p :: p in r.body <==> p in s.projects && OwnedBy(p, Authenticate(s.users, header).user.id)
  {
    match Authenticate(s.users, header)
    case Denied(e) => Fail(401, e)
    case Granted(u) => Ok(200, Filter(s.projects, Owns(u.id)))
  }

  /** The listing keeps the stored order: it is a subsequence of the collection. */
  lemma ListProjectsInOrder(s: Store, header: Option<string>)
    requires ListProjects(s, header).Ok?
    ensures IsSubsequence(ListProjects(s, header).body, s.projects)
  {
    var u := Authenticate(s.users, header).user;
    FilterIsSubsequence(s.projects, Owns(u.id));
  }

  // ---------------------------------------------------------------------
  // POST /api/projects

  /** The body with `userId` and `userName` overwritten by the caller's, so a
      client cannot create a project in someone else's name. */
  function Stamped(b: ProjectBody, u: User): ProjectBody {
    b.(userId := Some(u.id), userName := Some(DisplayName(u)))
  }

  function CreateProject(s: Store, header: Option<string>, b: ProjectBody, freshId: Id)
    : (r: (Store, Reply<Project>))
    ensures r.1.Fail? ==> r.0 == s
    ensures Authenticate(s.users, header).Denied? ==> r.1 == Fail(401, Authenticate(s.users, header).error)
    ensures r.1.Ok? ==> (
      var u := Authenticate(s.users, header).user;
      && r.1.code == 201
      && r.0 == s.(projects := s.projects + [r.1.body])
      && r.1.body.id == freshId
      && r.1.body.userId == u.id && r.1.body.userName == DisplayName(u)
      && r.1.body.status == b.status.GetOr(NotStarted)
      && Some(r.1.body.title) == b.title && Some(r.1.body.description) == b.description
      && Some(r.1.body.techStack) == b.techStack && Some(r.1.body.week) == b.week
      && r.1.body.githubRepo == b.githubRepo
      && ProjectDeclaredOnly(r.1.body))
    ensures r.1.Ok? <==> (
      && Authenticate(s.users, header).Granted?
      && Truthy(b.title) && Truthy(b.description) && Truthy(b.techStack)
      && b.week.Some? && WeekInRange(b.week.value)
      && (b.status.None? || IsStatus(b.status.value))
      && Authenticate(s.users, header).user.id != ""
      && DisplayName(Authenticate(s.users, header).user) != ""
      && forall k :: 0 <= k < |s.projects| ==> s.projects[k].id != freshId)
  {
    match Authenticate(s.users, header)
    case Denied(e) => (s, Fail(401, e))
    case Granted(u) =>
      var p := NewProject(freshId, Stamped(b, u));
      match InsertProject(s.projects, p)
      case None => (s, Fail(500, StoreError))
      case Some(ps) => (s.(projects := ps), Ok(201, p))
  }

  /** A created project is listed for its creator afterwards. */
  lemma CreateThenList(s: Store, header: Option<string>, b: ProjectBody, freshId: Id)
    requires CreateProject(s, header, b, freshId).1.Ok?
    ensures var (s', reply) := CreateProject(s, header, b, freshId);
      ListProjects(s', header).Ok? && reply.body in ListProjects(s', header).body
  {
  }

  lemma CreatePreservesValidStore(s: Store, header: Option<string>, b: ProjectBody, freshId: Id)
    requires ValidStore(s)
    ensures ValidStore(CreateProject(s, header, b, freshId).0)
  {
  }

  // ---------------------------------------------------------------------
  // PUT /api/projects/:id

  /** The update document: the body, with `userId` and `userName` taken from
      the stored project and `techStack` kept unless the body gives a
      non-empty one. */
  function Merged(b: ProjectBody, e: Project): ProjectBody {
    b.(userId := Some(e.userId), userName := Some(e.userName),
       techStack := if Truthy(b.techStack) then b.techStack else Some(e.techStack))
  }

  function UpdateProject(s: Store, header: Option<string>, id: Id, b: ProjectBody)
    : (r: (Store, Reply<Project>))
    ensures r.1.Fail? ==> r.0 == s
    ensures Authenticate(s.users, header).Denied? ==> r.1 == Fail(401, Authenticate(s.users, header).error)
    ensures r.1 == Fail(400, InvalidProjectId) <==> Authenticate(s.users, header).Granted? && !IsObjectId(id)
    ensures r.1 == Fail(404, ProjectNotFound) <==> (
      && Authenticate(s.users, header).Granted? && IsObjectId(id)
      && FindOwned(s.projects, id, Authenticate(s.users, header).user.id).None?)
    ensures r.1.Ok? ==> (
      var i := FindOwned(s.projects, id, Authenticate(s.users, header).user.id).value;
      var e := s.projects[i];
      var p := r.1.body;
      && r.1.code == 200
      && r.0 == s.(projects := s.projects[i := p])
      && p.id == id && p.userId == e.userId && p.userName == e.userName
      && p.url == e.url && p.isHidden == e.isHidden
      && p.techStack == (if Truthy(b.techStack) then b.techStack.value else e.techStack)
      && p.title == b.title.GetOr(e.title) && p.description == b.description.GetOr(e.description)
      && p.week == b.week.GetOr(e.week) && p.status == b.status.GetOr(e.status)
      && p.githubRepo == (if b.githubRepo.Some? then b.githubRepo else e.githubRepo))
    ensures r.1.Ok? <==> (
      && Authenticate(s.users, header).Granted? && IsObjectId(id)
      && FindOwned(s.projects, id, Authenticate(s.users, header).user.id).Some?
      && PatchValid(Merged(b, s.projects[FindOwned(s.projects, id, Authenticate(s.users, header).user.id).value])))
  {
    match Authenticate(s.users, header)
    case Denied(e) => (s, Fail(401, e))
    case Granted(u) =>
      if !IsObjectId(id) then (s, Fail(400, InvalidProjectId))
      else match FindOwned(s.projects, id, u.id)
        case None => (s, Fail(404, ProjectNotFound))
        case Some(i) =>
          var m := Merged(b, s.projects[i]);
          if !PatchValid(m) then (s, Fail(500, StoreError))
          else
            var p := ApplyPatch(s.projects[i], m);
            (s.(projects := s.projects[i := p]), Ok(200, p))
  }

  /** An update keeps every document valid, and ids unique. */
  lemma UpdatePreservesValidStore(s: Store, header: Option<string>, id: Id, b: ProjectBody)
    requires ValidStore(s)
    ensures ValidStore(UpdateProject(s, header, id, b).0)
  {
    var r := UpdateProject(s, header, id, b);
    if r.1.Ok? {
      var i := FindOwned(s.projects, id, Authenticate(s.users, header).user.id).value;
      PatchPreservesValidity(s.projects[i], Merged(b, s.projects[i]));
    }
  }

  // ---------------------------------------------------------------------
  // DELETE /api/projects/:id

  function DeleteProject(s: Store, header: Option<string>, id: Id): (r: (Store, Reply<string>))
    ensures r.1.Fail? ==> r.0 == s
    ensures Authenticate(s.users, header).Denied? ==> r.1 == Fail(401, Authenticate(s.users, header).error)
    ensures r.1 == Fail(500, StoreError) <==> Authenticate(s.users, header).Granted? && !IsObjectId(id)
    ensures r.1 == Fail(404, ProjectNotFound) <==> (
      && Authenticate(s.users, header).Granted? && IsObjectId(id)
      && FindOwned(s.projects, id, Authenticate(s.users, header).user.id).None?)
    ensures r.1.Ok? <==> (
      && Authenticate(s.users, header).Granted? && IsObjectId(id)
      && FindOwned(s.projects, id, Authenticate(s.users, header).user.id).Some?)
    ensures r.1.Ok? ==> (
      && r.1.code == 200 && r.1.body == ProjectDeleted
      && r.0.users == s.users && r.0.messages == s.messages
      && r.0.projects == RemoveAt(s.projects, FindOwned(s.projects, id, Authenticate(s.users, header).user.id).value)
      && |r.0.projects| == |s.projects| - 1)
  {
    match Authenticate(s.users, header)
    case Denied(e) => (s, Fail(401, e))
    case Granted(u) =>
      if !IsObjectId(id) then (s, Fail(500, StoreError))
      else match FindOwned(s.projects, id, u.id)
        case None => (s, Fail(404, ProjectNotFound))
        case Some(i) => (s.(projects := RemoveAt(s.projects, i)), Ok(200, ProjectDeleted))
  }

  /** With unique ids, a successful delete removes exactly the project with
      that id and keeps the others in order. */
  lemma DeleteRemovesExactly(s: Store, header: Option<string>, id: Id)
    requires ProjectIdsUnique(s.projects)
    requires DeleteProject(s, header, id).1.Ok?
    ensures DeleteProject(s, header, id).0.projects == Filter(s.projects, NotId(id))
  {
    var i := FindOwned(s.projects, id, Authenticate(s.users, header).user.id).value;
    RemoveAtIsFilter(s.projects, i, NotId(id));
  }

  lemma DeletePreservesValidStore(s: Store, header: Option<string>, id: Id)
    requires ValidStore(s)
    ensures ValidStore(DeleteProject(s, header, id).0)
  {
    var r := DeleteProject(s, header, id);
    if r.1.Ok? {
      var i := FindOwned(s.projects, id, Authenticate(s.users, header).user.id).value;
      var ps := RemoveAt(s.projects, i);
      forall a, b | 0 <= a < b < |ps| ensures ps[a].id != ps[b].id {
        var a' := if a < i then a else a + 1;
        var b' := if b < i then b else b + 1;
        assert ps[a] == s.projects[a'] && ps[b] == s.projects[b'];
      }
    }
  }
}

=== FILE: records.dfy ===
/** The documents the server stores (users, projects, chat messages), the
    request bodies it accepts, and the store as three sequences in natural
    (insertion) order. Enumerated fields are kept as strings, as in the
    source, so that the schema can reject values outside the enumeration and
    the client can meet statuses it does not know. */
module Records {

  import opened Common
  import Text

  const RoleUser := "user"
  const RoleAdmin := "admin"
  const ProviderLocal := "local"
  const ProviderGitHub := "github"

  const NotStarted := "Not Started"
  const UnderReview := "Under Review"
  const Approved := "Approved"

  predicate IsHexDigit(c: char) {
    ('0' <= c <= '9') || ('a' <= c <= 'f') || ('A' <= c <= 'F')
  }

  /** `mongoose.Types.ObjectId.isValid` on route parameters: 24 hexadecimal
      digits. A parameter that is not an ObjectId makes a query on `_id` fail
      with a cast error. */
  predicate IsObjectId(id: string) {
    |id| == 24 && forall i :: 0 <= i < |id| ==> IsHexDigit(id[i])
  }

  /** A user document (User.js). `password`, `githubId`, `avatar` and
      `authToken` are optional; timestamps are not modelled. */
  datatype User = User(
    id: Id,
    name: string,
    email: string,
    password: Option<string>,
    role: string,
    provider: string,
    githubId: Option<string>,
    avatar: Option<string>,
    authToken: Option<string>)

  /** A project document (Project.ts). `url` and `isHidden` are read by the
      client but are not schema paths, so the server never stores them. */
  datatype Project = Project(
    id: Id,
    title: string,
    description: string,
    techStack: string,
    week: int,
    status: string,
    githubRepo: Option<string>,
    userId: Id,
    userName: string,
    url: Option<string>,
    isHidden: Option<bool>)

  /** The quoted message a reply carries by value. */
  datatype ReplyRef = ReplyRef(senderId: Id, senderName: string, content: string)

  /** A chat message (Chat.js). `recipientId`, `isBroadcast` (false when
      absent) and `replyTo` are read by the client but are not schema paths. */
  datatype Message = Message(
    id: Id,
    senderId: Id,
    senderName: string,
    content: string,
    fileUrl: Option<string>,
    fileName: Option<string>,
    fileType: Option<string>,
    fileSize: Option<int>,
    isAdmin: bool,
    timestamp: int,
    recipientId: Option<Id>,
    isBroadcast: bool,
    replyTo: Option<ReplyRef>)

  /** The three collections, each in natural order. */
  datatype Store = Store(users: seq<User>, projects: seq<Project>, messages: seq<Message>)

  /** A JSON body for `POST /api/projects` or `PUT /api/projects/:id`;
      an absent key is `None`. */
  datatype ProjectBody = ProjectBody(
    title: Option<string>,
    description: Option<string>,
    techStack: Option<string>,
    week: Option<int>,
    status: Option<string>,
    githubRepo: Option<string>,
    userId: Option<Id>,
    userName: Option<string>,
    url: Option<string>,
    isHidden: Option<bool>)

  /** A body for `POST /api/chat`. */
  datatype ChatBody = ChatBody(
    content: Option<string>,
    fileUrl: Option<string>,
    fileName: Option<string>,
    fileType: Option<string>,
    fileSize: Option<int>,
    isAdmin: Option<bool>,
    senderId: Option<Id>,
    senderName: Option<string>,
    recipientId: Option<Id>,
    isBroadcast: Option<bool>,
    replyTo: Option<ReplyRef>,
    timestamp: Option<int>)

  /** The multipart file the upload middleware stored on disk. */
  datatype Upload = Upload(filename: string, originalName: string, mimeType: string, size: int)

  /** `user.name || user.email.split('@')[0]`: the name the server stamps on
      the projects and messages a user creates. */
  function DisplayName(u: User): (r: string)
    ensures u.name != "" ==> r == u.name
    ensures u.name == "" ==> Text.StartsWith(u.email, r) && '@' !in r
    ensures u.name == "" && |r| < |u.email| ==> u.email[|r|] == '@'
    ensures u.name == "" && '@' !in u.email ==> r == u.email
  {
    var local := Text.Split(u.email, '@')[0];
    Text.FirstPiece(u.email, '@');
    OrElse(u.name, local)
  }
}

=== FILE: scenarios.dfy ===
/** End-to-end consequences of how the pages and the server fit together:
    what a page shows of what the server stores, and where the two disagree. */
module Scenarios {

  import opened Common
  import opened Records
  import opened Schema
  import opened Auth
  import opened ClientSession
  import Text
  import ProjectForm
  import ProjectRoutes
  import ChatRoutes
  import ChatView
  import AdminView
  import WeekGrid
  import Dashboard

  // ---------------------------------------------------------------------
  // chat: the page's filters over the server's listing

  /** Everything `GET /api/chat` returns comes from the store. */
  lemma ListedMessagesAreStored(s: Store, header: Option<string>, m: Message)
    requires ChatRoutes.ListMessages(s, header).Ok?
    requires m in ChatRoutes.ListMessages(s, header).body
    ensures m in s.messages
  {
    var body := ChatRoutes.ListMessages(s, header).body;
    if Authenticate(s.users, header).user.role == RoleAdmin {
      assert m in multiset(body);
    }
  }

  /** A stored message never carries a recipient or a broadcast flag. */
  lemma ListedMessagesUndirected(s: Store, header: Option<string>, m: Message)
    requires ValidStore(s)
    requires ChatRoutes.ListMessages(s, header).Ok?
    requires m in ChatRoutes.ListMessages(s, header).body
    ensures m.recipientId.None? && !m.isBroadcast && m.replyTo.None?
  {
    ListedMessagesAreStored(s, header, m);
    var i :| 0 <= i < |s.messages| && s.messages[i] == m;
  }

  /** The page's own visibility filter drops nothing from a user's listing:
      the server already keeps only their own and admin messages, and the
      stored admin messages have no recipient. */
  lemma FetchFilterKeepsServerListing(s: Store, header: Option<string>)
    requires ValidStore(s)
    requires ChatRoutes.ListMessages(s, header).Ok?
    requires Authenticate(s.users, header).user.role != RoleAdmin
    ensures var body := ChatRoutes.ListMessages(s, header).body;
      ChatView.FetchFilter(body, false, Some(Authenticate(s.users, header).user.id)) == body
  {
    var body := ChatRoutes.ListMessages(s, header).body;
    var me := Some(Authenticate(s.users, header).user.id);
    forall k | 0 <= k < |body| ensures ChatView.KeptOnFetch(body[k], me) {
      ListedMessagesUndirected(s, header, body[k]);
    }
  }

  /** A user's inbox of direct admin messages stays empty: the recipient is
      not a stored path, so no fetched message is addressed to anyone. */
  lemma InboxAlwaysEmpty(s: Store, header: Option<string>, isAdmin: bool, me: Id)
    requires ValidStore(s)
    requires ChatRoutes.ListMessages(s, header).Ok?
    ensures ChatView.Inbox(ChatRoutes.ListMessages(s, header).body, isAdmin, Some(me)) == []
  {
    var body := ChatRoutes.ListMessages(s, header).body;
    var r := ChatView.Inbox(body, isAdmin, Some(me));
    if r != [] {
      assert r[0] in r;
      ListedMessagesUndirected(s, header, r[0]);
    }
  }

  /** The admin's broadcast view shows nothing fetched from the server: the
      broadcast flag is not stored either. */
  lemma BroadcastTabAlwaysEmpty(s: Store, header: Option<string>, me: Option<Id>)
    requires ValidStore(s)
    requires ChatRoutes.ListMessages(s, header).Ok?
    ensures ChatView.ChatTab(ChatRoutes.ListMessages(s, header).body, true, ChatView.Broadcast, me) == []
  {
    var body := ChatRoutes.ListMessages(s, header).body;
    var r := ChatView.ChatTab(body, true, ChatView.Broadcast, me);
    if r != [] {
      assert r[0] in r;
      ListedMessagesUndirected(s, header, r[0]);
    }
  }

  /** The server takes `isAdmin` from the body, so a plain user can post a
      message every other user then receives as an admin message. */
  lemma ForgedAdminMessage(s: Store, header: Option<string>, b: ChatBody, freshId: Id, now: int, other: Option<string>)
    requires Authenticate(s.users, header).Granted? && Authenticate(s.users, header).user.role == RoleUser
    requires b.isAdmin == Some(true)
    requires ChatRoutes.PostMessage(s, header, b, None, freshId, now).1.Ok?
    requires ChatRoutes.ListMessages(ChatRoutes.PostMessage(s, header, b, None, freshId, now).0, other).Ok?
    ensures var (s', reply) := ChatRoutes.PostMessage(s, header, b, None, freshId, now);
      && reply.body.isAdmin
      && !ChatView.ShowReply(true, reply.body)
      && reply.body in ChatRoutes.ListMessages(s', other).body
  {
    var (s', reply) := ChatRoutes.PostMessage(s, header, b, None, freshId, now);
    assert s'.messages[|s'.messages| - 1] == reply.body;
    if Authenticate(s'.users, other).user.role == RoleAdmin {
      assert reply.body in multiset(s'.messages);
    }
  }

  /** The page shows its delete button on a stored message exactly when the
      server lets the caller delete it: for admins and for the sender. */
  lemma DeleteButtonMatchesServer(s: Store, header: Option<string>, k: nat)
    requires MessageIdsUnique(s.messages)
    requires Authenticate(s.users, header).Granted?
    requires k < |s.messages| && IsObjectId(s.messages[k].id)
    ensures var u := Authenticate(s.users, header).user;
      var del := ChatRoutes.DeleteMessage(s, header, s.messages[k].id);
      ChatView.ShowDelete(u.role == RoleAdmin, Some(u.id), s.messages[k]) <==> del.1.Ok?
    ensures var u := Authenticate(s.users, header).user;
      var del := ChatRoutes.DeleteMessage(s, header, s.messages[k].id);
      !ChatView.ShowDelete(u.role == RoleAdmin, Some(u.id), s.messages[k]) <==> del.1 == Fail(403, ChatRoutes.NotAuthorized)
  {
    var i := ChatRoutes.FindMessage(s.messages, s.messages[k].id).value;
    assert i == k;
  }

  /** A message with a file and no text is sent with empty content, which
      the schema rejects: the server answers 500 and stores nothing. */
  lemma FileOnlyMessageRejected(s: Store, header: Option<string>, c: ChatView.Composer, u: Session, freshId: Id, now: int)
    requires Authenticate(s.users, header).Granted?
    requires Text.Trim(c.text) == "" && c.selectedFile && !ChatView.ToOneUser(c)
    ensures ChatView.Compose(c, Some(u)).Some?
    ensures var r := ChatRoutes.PostMessage(s, header, ChatView.Compose(c, Some(u)).value, None, freshId, now);
      r.1 == Fail(500, ChatRoutes.StoreError) && r.0 == s
  {
  }

  /** ... except when an admin writes to one user: the two-space prefix makes
      the content non-empty, and the message is stored. */
  lemma FileOnlyDirectMessageStored(s: Store, header: Option<string>, c: ChatView.Composer, u: Session, freshId: Id, now: int)
    requires Text.Trim(c.text) == "" && c.selectedFile && ChatView.ToOneUser(c)
    requires Authenticate(s.users, header).Granted?
    requires Authenticate(s.users, header).user.id != "" && DisplayName(Authenticate(s.users, header).user) != ""
    requires forall k :: 0 <= k < |s.messages| ==> s.messages[k].id != freshId
    ensures ChatView.Compose(c, Some(u)).Some?
    ensures var r := ChatRoutes.PostMessage(s, header, ChatView.Compose(c, Some(u)).value, None, freshId, now);
      r.1.Ok? && r.1.body.content == "  "
  {
    DirectContent(c, u);
  }

  lemma DirectContent(c: ChatView.Composer, u: Session)
    requires Text.Trim(c.text) == "" && c.selectedFile && ChatView.ToOneUser(c)
    ensures ChatView.Compose(c, Some(u)).Some?
    ensures ChatView.Compose(c, Some(u)).value.content == Some("  ")
  {
    var t := Text.Trim(c.text);
    var r := ChatView.Compose(c, Some(u));
    assert r.value.content == Some("  " + t);
    EmptyAfterPrefix(t);
  }

  lemma EmptyAfterPrefix(t: string)
    requires t == ""
    ensures "  " + t == "  "
  {
  }

  // ---------------------------------------------------------------------
  // the dashboard and the project routes

  /** A dashboard submit for an expanded week stores an "Under Review"
      project for that week, owned by the caller under the server's display
      name, and the week's tile shows it after the next load. */
  lemma DashboardSubmitStored(s: Store, header: Option<string>, data: ProjectForm.Submitted, week: int, u: Session, freshId: Id)
    requires ProjectRoutes.CreateProject(s, header, Dashboard.FormSubmission(data, Some(week), u), freshId).1.Ok?
    ensures var (s', reply) := ProjectRoutes.CreateProject(s, header, Dashboard.FormSubmission(data, Some(week), u), freshId);
      var caller := Authenticate(s.users, header).user;
      && reply.body.status == UnderReview && reply.body.week == week
      && reply.body.userId == caller.id && reply.body.userName == DisplayName(caller)
      && ProjectRoutes.ListProjects(s', header).Ok?
      && WeekGrid.WeekProject(ProjectRoutes.ListProjects(s', header).body, week).Some?
  {
    var b := Dashboard.FormSubmission(data, Some(week), u);
    var (s', reply) := ProjectRoutes.CreateProject(s, header, b, freshId);
    ProjectRoutes.CreateThenList(s, header, b, freshId);
    var listed := ProjectRoutes.ListProjects(s', header).body;
    var k :| 0 <= k < |listed| && listed[k] == reply.body;
  }

  /** A dashboard submit with no week expanded is refused by the schema. */
  lemma DashboardSubmitNeedsWeek(s: Store, header: Option<string>, data: ProjectForm.Submitted, u: Session, freshId: Id)
    ensures ProjectRoutes.CreateProject(s, header, Dashboard.FormSubmission(data, None, u), freshId).1.Fail?
  {
  }

  /** Deleting by week: when two of the user's projects share a week, the
      server deletes one while the page drops both, so the page shows fewer
      projects than the server still has. */
  lemma DeleteByWeekDiverges(s: Store, header: Option<string>, week: int, i: nat, j: nat)
    requires ProjectRoutes.ListProjects(s, header).Ok?
    requires var listed := ProjectRoutes.ListProjects(s, header).body;
      i < j < |listed| && listed[i].week == week && listed[j].week == week
    requires var id := Dashboard.DeleteRequest(ProjectRoutes.ListProjects(s, header).body, week);
      id.Some? && ProjectRoutes.DeleteProject(s, header, id.value).1.Ok?
    ensures var listed := ProjectRoutes.ListProjects(s, header).body;
      var s' := ProjectRoutes.DeleteProject(s, header, Dashboard.DeleteRequest(listed, week).value).0;
      && ProjectRoutes.ListProjects(s', header).Ok?
      && |Dashboard.AfterDeleteByWeek(listed, week)| < |ProjectRoutes.ListProjects(s', header).body|
  {
    var listed := ProjectRoutes.ListProjects(s, header).body;
    var id := Dashboard.DeleteRequest(listed, week).value;
    var u := Authenticate(s.users, header).user;
    var k := ProjectRoutes.FindOwned(s.projects, id, u.id).value;
    var s' := ProjectRoutes.DeleteProject(s, header, id).0;
    assert s'.projects == RemoveAt(s.projects, k);
    assert s'.users == s.users;
    FilterRemoveAtCount(s.projects, k, ProjectRoutes.Owns(u.id));
    Dashboard.DeleteByWeekDropsMore(listed, week, i, j);
  }

  /** Dropping by the deleted id instead keeps the page in step with the
      server: the list equals what `GET /api/projects` returns afterwards. */
  lemma DeleteByIdAgrees(s: Store, header: Option<string>, week: int)
    requires ProjectIdsUnique(s.projects)
    requires ProjectRoutes.ListProjects(s, header).Ok?
    requires var id := Dashboard.DeleteRequest(ProjectRoutes.ListProjects(s, header).body, week);
      id.Some? && ProjectRoutes.DeleteProject(s, header, id.value).1.Ok?
    ensures var listed := ProjectRoutes.ListProjects(s, header).body;
      var id := Dashboard.DeleteRequest(listed, week).value;
      var s' := ProjectRoutes.DeleteProject(s, header, id).0;
      && ProjectRoutes.ListProjects(s', header).Ok?
      && Dashboard.AfterDeleteById(listed, id) == ProjectRoutes.ListProjects(s', header).body
  {
    var listed := ProjectRoutes.ListProjects(s, header).body;
    var id := Dashboard.DeleteRequest(listed, week).value;
    var u := Authenticate(s.users, header).user;
    var s' := ProjectRoutes.DeleteProject(s, header, id).0;
    ProjectRoutes.DeleteRemovesExactly(s, header, id);
    assert s'.users == s.users;
    var both := (p: Project) => ProjectRoutes.OwnedBy(p, u.id) && p.id != id;
    FilterFilter(s.projects, ProjectRoutes.Owns(u.id), ProjectRoutes.NotId(id), both);
    FilterFilter(s.projects, ProjectRoutes.NotId(id), ProjectRoutes.Owns(u.id), both);
  }

  // ---------------------------------------------------------------------
  // the admin page

  /** The admin page loads `GET /api/projects`, which lists the caller's own
      projects: every row it shows belongs to the admin. */
  lemma AdminRowsAreOwn(s: Store, header: Option<string>)
    requires ProjectRoutes.ListProjects(s, header).Ok?
    ensures var rows := AdminView.LoadRows(ProjectRoutes.ListProjects(s, header).body);
      forall k :: 0 <= k < |rows| ==> rows[k].userId == Authenticate(s.users, header).user.id
  {
  }

  /** The hide filter never hides anything the server sends: `isHidden` is
      not stored, so every listed project becomes a row. */
  lemma HideFilterInert(s: Store, header: Option<string>)
    requires ValidStore(s)
    requires ProjectRoutes.ListProjects(s, header).Ok?
    ensures |AdminView.LoadRows(ProjectRoutes.ListProjects(s, header).body)| == |ProjectRoutes.ListProjects(s, header).body|
  {
    var listed := ProjectRoutes.ListProjects(s, header).body;
    forall k | 0 <= k < |listed| ensures !AdminView.Hidden(listed[k]) {
      assert listed[k] in s.projects;
    }
  }

  /** An admin changing the status of another user's project gets 404, and
      the page then drops that row. */
  lemma ApproveOthersProject(s: Store, header: Option<string>, rows: seq<AdminView.Row>, id: Id, status: string)
    requires Authenticate(s.users, header).Granted?
    requires IsObjectId(id)
    requires forall k :: 0 <= k < |s.projects| && s.projects[k].id == id ==> s.projects[k].userId != Authenticate(s.users, header).user.id
    requires AdminView.RequestStatusChange(rows, id, status).Put?
    ensures var q := AdminView.RequestStatusChange(rows, id, status);
      ProjectRoutes.UpdateProject(s, header, q.id, q.body).1 == Fail(404, ProjectRoutes.ProjectNotFound)
    ensures forall x :: x in AdminView.AfterStatusReply(rows, id, AdminView.NotFound) ==> x.id != id
  {
  }
}

=== FILE: schema.dfy ===
/** The three Mongoose schemas as validity predicates, document construction
    (`new Model(body)`: defaults applied, undeclared paths dropped by strict
    mode), and `save` against the unique indexes. A String path that is
    `required` rejects both an absent value and the empty string. */
module Schema {

  import opened Common
  import opened Records

  // ---------------------------------------------------------------------
  // User (src/models/User.js)

  predicate IsRole(r: string) {
    r == RoleUser || r == RoleAdmin
  }

  predicate IsProvider(p: string) {
    p == ProviderLocal || p == ProviderGitHub
  }

  /** Required `name` and `email`; `password` required exactly for local
      accounts; `role` and `provider` inside their enumerations. */
  predicate UserValid(u: User) {
    && u.name != ""
    && u.email != ""
    && (u.provider == ProviderLocal ==> Truthy(u.password))
    && IsRole(u.role)
    && IsProvider(u.provider)
  }

  /** The fields a new user document is built from; absent keys are `None`. */
  datatype UserDraft = UserDraft(
    name: Option<string>,
    email: Option<string>,
    password: Option<string>,
    role: Option<string>,
    provider: Option<string>,
    githubId: Option<string>,
    avatar: Option<string>)

  /** `new User(draft)`: `role` defaults to user, `provider` to local, and a
      new document carries no token. */
  function NewUser(id: Id, d: UserDraft): (u: User)
    ensures u.id == id && u.authToken.None?
    ensures u.role == d.role.GetOr(RoleUser) && u.provider == d.provider.GetOr(ProviderLocal)
    ensures u.password == d.password && u.githubId == d.githubId && u.avatar == d.avatar
    ensures UserValid(u) <==>
      && Truthy(d.name) && Truthy(d.email)
      && (d.provider.None? || d.provider == Some(ProviderLocal) ==> Truthy(d.password))
      && (d.role.None? || IsRole(d.role.value))
      && (d.provider.None? || IsProvider(d.provider.value))
  {
    User(id, d.name.GetOr(""), d.email.GetOr(""), d.password,
         d.role.GetOr(RoleUser), d.provider.GetOr(ProviderLocal),
         d.githubId, d.avatar, None)
  }

  /** Two documents that the unique indexes (`_id`, `email`, and the sparse
      `githubId` and `authToken`) forbid from coexisting. */
  predicate UserClash(a: User, b: User) {
    || a.id == b.id
    || a.email == b.email
    || (a.githubId.Some? && a.githubId == b.githubId)
    || (a.authToken.Some? && a.authToken == b.authToken)
  }

  predicate UsersUnique(us: seq<User>) {
    forall i, j :: 0 <= i < j < |us| ==> !UserClash(us[i], us[j])
  }

  /** Under the unique indexes a token identifies at most one user. */
  lemma TokenHolderUnique(us: seq<User>, i: nat, j: nat, t: string)
    requires UsersUnique(us)
    requires i < |us| && j < |us|
    requires us[i].authToken == Some(t) && us[j].authToken == Some(t)
    ensures i == j
  {
  }

  /** `save()` of a new user: rejected by validation or by a duplicate key;
      otherwise appended. */
  function InsertUser(us: seq<User>, u: User): (r: Option<seq<User>>)
    ensures r.Some? <==> UserValid(u) && forall k :: 0 <= k < |us| ==> !UserClash(us[k], u)
    ensures r.Some? ==> r.value == us + [u]
    ensures r.Some? && UsersUnique(us) ==> UsersUnique(r.value)
  {
    if UserValid(u) && forall k :: 0 <= k < |us| ==> !UserClash(us[k], u) then Some(us + [u]) else None
  }

  /** `save()` of the user at index `i` after changing it in memory. */
  function ReplaceUser(us: seq<User>, i: nat, u: User): (r: Option<seq<User>>)
    requires i < |us|
    ensures r.Some? <==> UserValid(u) && forall k :: 0 <= k < |us| && k != i ==> !UserClash(us[k], u)
    ensures r.Some? ==> r.value == us[i := u]
    ensures r.Some? && UsersUnique(us) ==> UsersUnique(r.value)
  {
    if UserValid(u) && forall k :: 0 <= k < |us| && k != i ==> !UserClash(us[k], u) then
      var r := us[i := u];
      assert UsersUnique(us) ==> UsersUnique(r) by {
        if UsersUnique(us) {
          forall a, b | 0 <= a < b < |r| ensures !UserClash(r[a], r[b]) {
            if a == i {
              assert !UserClash(us[b], u);
            }
          }
        }
      }
      Some(r)
    else None
  }

  // ---------------------------------------------------------------------
  // Project (src/models/Project.ts)

  predicate IsStatus(s: string) {
    s == NotStarted || s == UnderReview || s == Approved
  }

  predicate WeekInRange(w: int) {
    1 <= w <= 52
  }

  /** Required non-empty `title`, `description`, `techStack`, `userId` and
      `userName`; `week` in 1..52; `status` in its enumeration. */
  predicate ProjectValid(p: Project) {
    && p.title != "" && p.description != "" && p.techStack != ""
    && WeekInRange(p.week)
    && IsStatus(p.status)
    && p.userId != "" && p.userName != ""
  }

  /** Strict mode: the paths the schema does not declare are never stored. */
  predicate ProjectDeclaredOnly(p: Project) {
    p.url.None? && p.isHidden.None?
  }

  /** `new Project(body)`: `status` defaults to Not Started, `url` and
      `isHidden` are dropped, every declared path is copied. A missing
      required path becomes a value that fails its validator. */
  function NewProject(id: Id, b: ProjectBody): (p: Project)
    ensures p.id == id && ProjectDeclaredOnly(p)
    ensures p.status == b.status.GetOr(NotStarted)
    ensures p.githubRepo == b.githubRepo
    ensures b.title.Some? ==> p.title == b.title.value
    ensures b.description.Some? ==> p.description == b.description.value
    ensures b.techStack.Some? ==> p.techStack == b.techStack.value
    ensures b.week.Some? ==> p.week == b.week.value
    ensures b.userId.Some? ==> p.userId == b.userId.value
    ensures b.userName.Some? ==> p.userName == b.userName.value
    ensures ProjectValid(p) <==>
      && Truthy(b.title) && Truthy(b.description) && Truthy(b.techStack)
      && b.week.Some? && WeekInRange(b.week.value)
      && (b.status.None? || IsStatus(b.status.value))
      && Truthy(b.userId) && Truthy(b.userName)
  {
    Project(id, b.title.GetOr(""), b.description.GetOr(""), b.techStack.GetOr(""),
            b.week.GetOr(0), b.status.GetOr(NotStarted), b.githubRepo,
            b.userId.GetOr(""), b.userName.GetOr(""), None, None)
  }

  /** The update validators (`runValidators`): each path the update sets is
      checked against its own validator; paths it leaves alone are not. */
  predicate PatchValid(b: ProjectBody) {
    && (b.title.Some? ==> b.title.value != "")
    && (b.description.Some? ==> b.description.value != "")
    && (b.techStack.Some? ==> b.techStack.value != "")
    && (b.week.Some? ==> WeekInRange(b.week.value))
    && (b.status.Some? ==> IsStatus(b.status.value))
    && (b.userId.Some? ==> b.userId.value != "")
    && (b.userName.Some? ==> b.userName.value != "")
  }

  /** `$set` of every declared path present in the body; `url` and
      `isHidden` are dropped by strict mode. */
  function ApplyPatch(p: Project, b: ProjectBody): (r: Project)
    ensures r.id == p.id && r.url == p.url && r.isHidden == p.isHidden
    ensures b == ProjectBody(None, None, None, None, None, None, None, None, b.url, b.isHidden) ==> r == p
  {
    p.(title := b.title.GetOr(p.title),
       description := b.description.GetOr(p.description),
       techStack := b.techStack.GetOr(p.techStack),
       week := b.week.GetOr(p.week),
       status := b.status.GetOr(p.status),
       githubRepo := if b.githubRepo.Some? then b.githubRepo else p.githubRepo,
       userId := b.userId.GetOr(p.userId),
       userName := b.userName.GetOr(p.userName))
  }

  /** A valid document stays valid under a patch that passes the update validators. */
  lemma PatchPreservesValidity(p: Project, b: ProjectBody)
    requires ProjectValid(p) && ProjectDeclaredOnly(p) && PatchValid(b)
    ensures ProjectValid(ApplyPatch(p, b)) && ProjectDeclaredOnly(ApplyPatch(p, b))
  {
  }

  predicate ProjectIdsUnique(ps: seq<Project>) {
    forall i, j :: 0 <= i < j < |ps| ==> ps[i].id != ps[j].id
  }

  /** `save()` of a new project: validation, then the `_id` index. */
  function InsertProject(ps: seq<Project>, p: Project): (r: Option<seq<Project>>)
    ensures r.Some? <==> ProjectValid(p) && forall k :: 0 <= k < |ps| ==> ps[k].id != p.id
    ensures r.Some? ==> r.value == ps + [p]
    ensures r.Some? && ProjectIdsUnique(ps) ==> ProjectIdsUnique(r.value)
  {
    if ProjectValid(p) && forall k :: 0 <= k < |ps| ==> ps[k].id != p.id then Some(ps + [p]) else None
  }

  // ---------------------------------------------------------------------
  // Chat (src/models/Chat.js)

  /** Required `senderId`, `senderName` and `content`; file fields optional. */
  predicate MessageValid(m: Message) {
    m.senderId != "" && m.senderName != "" && m.content != ""
  }

  /** Strict mode: recipient, broadcast flag and quoted reply are not stored. */
  predicate MessageDeclaredOnly(m: Message) {
    m.recipientId.None? && !m.isBroadcast && m.replyTo.None?
  }

  /** `new Chat(body)`: `isAdmin` defaults to false, `timestamp` to the
      current time `now`; the undeclared paths are dropped. */
  function NewMessage(id: Id, b: ChatBody, now: int): (m: Message)
    ensures m.id == id && MessageDeclaredOnly(m)
    ensures m.isAdmin == b.isAdmin.GetOr(false) && m.timestamp == b.timestamp.GetOr(now)
    ensures m.fileUrl == b.fileUrl && m.fileName == b.fileName
    ensures m.fileType == b.fileType && m.fileSize == b.fileSize
    ensures b.content.Some? ==> m.content == b.content.value
    ensures b.senderId.Some? ==> m.senderId == b.senderId.value
    ensures b.senderName.Some? ==> m.senderName == b.senderName.value
    ensures MessageValid(m) <==> Truthy(b.senderId) && Truthy(b.senderName) && Truthy(b.content)
  {
    Message(id, b.senderId.GetOr(""), b.senderName.GetOr(""), b.content.GetOr(""),
            b.fileUrl, b.fileName, b.fileType, b.fileSize,
            b.isAdmin.GetOr(false), b.timestamp.GetOr(now), None, false, None)
  }

  predicate MessageIdsUnique(ms: seq<Message>) {
    forall i, j :: 0 <= i < j < |ms| ==> ms[i].id != ms[j].id
  }

  function InsertMessage(ms: seq<Message>, m: Message): (r: Option<seq<Message>>)
    ensures r.Some? <==> MessageValid(m) && forall k :: 0 <= k < |ms| ==> ms[k].id != m.id
    ensures r.Some? ==> r.value == ms + [m]
    ensures r.Some? && MessageIdsUnique(ms) ==> MessageIdsUnique(r.value)
  {
    if MessageValid(m) && forall k :: 0 <= k < |ms| ==> ms[k].id != m.id then Some(ms + [m]) else None
  }

  // ---------------------------------------------------------------------
  // The whole store

  /** Every document passed its schema and the unique indexes hold. */
  predicate ValidStore(s: Store) {
    && UsersUnique(s.users)
    && (forall i :: 0 <= i < |s.users| ==> UserValid(s.users[i]))
    && ProjectIdsUnique(s.projects)
    && (forall i :: 0 <= i < |s.projects| ==> ProjectValid(s.projects[i]) && ProjectDeclaredOnly(s.projects[i]))
    && MessageIdsUnique(s.messages)
    && (forall i :: 0 <= i < |s.messages| ==> MessageValid(s.messages[i]) && MessageDeclaredOnly(s.messages[i]))
  }
}

=== FILE: session.dfy ===
/** The signed-in user as the browser keeps it (the `currentUser` the pages
    read), and the display name the pages put on what they send. */
module ClientSession {

  import opened Common

  /** The session user; absent fields are "". */
  datatype Session = Session(id: Id, name: string, login: string, email: string)

  /** `name || login || email`: the first non-empty of the three. */
  function SessionName(u: Session): (r: string)
    ensures r == u.name || r == u.login || r == u.email
    ensures u.name != "" ==> r == u.name
    ensures u.name == "" && u.login != "" ==> r == u.login
    ensures r == "" <==> u.name == "" && u.login == "" && u.email == ""
  {
    OrElse(OrElse(u.name, u.login), u.email)
  }
}

=== FILE: text.dfy ===
/** The JavaScript string operations the application relies on, over
    `string` = `seq<char>`: `trim`, `toLowerCase`, `startsWith`, `includes`,
    `split` / `join` on a one-character separator, `Number.prototype.toString`
    and `parseInt` for integers. */
module Text {

  import opened Common

  /** The whitespace `String.prototype.trim` removes, restricted to ASCII
      (tab, line feed, vertical tab, form feed, carriage return, space); the
      Unicode spaces and line terminators it also removes are not modelled. */
  predicate IsWhitespace(c: char) {
    c == ' ' || c == '\t' || c == '\n' || c == '\r' || c == '\U{B}' || c == '\U{C}'
  }

  predicate AllWhitespace(s: string) {
    forall i :: 0 <= i < |s| ==> IsWhitespace(s[i])
  }

  function TrimStart(s: string): (r: string)
    ensures |r| <= |s| && r == s[|s| - |r|..]
    ensures r == [] || !IsWhitespace(r[0])
    ensures AllWhitespace(s[..|s| - |r|])
  {
    if s != [] && IsWhitespace(s[0]) then TrimStart(s[1..]) else s
  }

  function TrimEnd(s: string): (r: string)
    ensures |r| <= |s| && r == s[..|r|]
    ensures r == [] || !IsWhitespace(r[|r| - 1])
    ensures AllWhitespace(s[|r|..])
  {
    if s != [] && IsWhitespace(s[|s| - 1]) then TrimEnd(s[..|s| - 1]) else s
  }

  /** `r` sits in `s` at `i` with only whitespace before and after it. */
  predicate TrimmedAt(s: string, r: string, i: int) {
    && OccursAt(s, r, i)
    && AllWhitespace(s[..i])
    && AllWhitespace(s[i + |r|..])
  }

  /** `s.trim()`: a contiguous piece of `s` with no whitespace at either end,
      and only whitespace cut away. */
  function Trim(s: string): (r: string)
    ensures Contains(s, r)
    ensures exists i :: TrimmedAt(s, r, i)
    ensures r == [] || (!IsWhitespace(r[0]) && !IsWhitespace(r[|r| - 1]))
    ensures r == [] <==> AllWhitespace(s)
  {
    TrimmedAtWitness(s);
    TrimEmptyIff(s);
    TrimEnd(TrimStart(s))
  }

  /** Trimming leaves nothing exactly when the text is all whitespace. */
  lemma TrimEmptyIff(s: string)
    ensures TrimEnd(TrimStart(s)) == [] <==> AllWhitespace(s)
  {
    var t := TrimStart(s);
    var k := |s| - |t|;
    assert s[k..] == t;
    assert t[0..] == t;
    WhitespaceHalves(s, k);
  }

  /** Trimming the start and then the end leaves a piece of `s` at the
      position where the leading whitespace stops. */
  lemma TrimmedAtWitness(s: string)
    ensures TrimmedAt(s, TrimEnd(TrimStart(s)), |s| - |TrimStart(s)|)
  {
    var t := TrimStart(s);
    var r := TrimEnd(t);
    var i := |s| - |t|;
    assert r == s[i..][..|r|];
    assert r == s[i..i + |r|];
    assert s[i + |r|..] == t[|r|..];
  }

  /** Text is all whitespace exactly when both sides of any cut are. */
  lemma WhitespaceHalves(s: string, k: nat)
    requires k <= |s|
    ensures AllWhitespace(s) <==> AllWhitespace(s[..k]) && AllWhitespace(s[k..])
  {
    if AllWhitespace(s[..k]) && AllWhitespace(s[k..]) {
      forall i | 0 <= i < |s| ensures IsWhitespace(s[i]) {
        if i < k { assert s[i] == s[..k][i]; } else { assert s[i] == s[k..][i - k]; }
      }
    }
  }

  function LowerChar(c: char): char {
    if 'A' <= c <= 'Z' then (c as int + 32) as char else c
  }

  /** `s.toLowerCase()` for ASCII letters; other letters are left as they are. */
  function ToLower(s: string): (r: string)
    ensures |r| == |s|
    ensures forall i :: 0 <= i < |s| ==> r[i] == LowerChar(s[i])
  {
    seq(|s|, i requires 0 <= i < |s| => LowerChar(s[i]))
  }

  /** `s.startsWith(p)`. */
  predicate StartsWith(s: string, p: string) {
    |p| <= |s| && s[..|p|] == p
  }

  /** `sub` occurs in `s` starting at position `i`. */
  predicate OccursAt(s: string, sub: string, i: int) {
    0 <= i <= |s| - |sub| && s[i..i + |sub|] == sub
  }

  /** `s.includes(sub)`. */
  predicate Contains(s: string, sub: string) {
    exists i | 0 <= i <= |s| - |sub| :: OccursAt(s, sub, i)
  }

  // ---------------------------------------------------------------------
  // split and join on one separator character

  /** `s.split(sep)` for a one-character separator: the pieces between
      consecutive separators, so there is always at least one piece. */
  function Split(s: string, sep: char): (parts: seq<string>)
    ensures |parts| >= 1
    ensures forall i :: 0 <= i < |parts| ==> sep !in parts[i]
  {
    if s == [] then [[]]
    else
      var rest := Split(s[1..], sep);
      if s[0] == sep then [[]] + rest
      else [[s[0]] + rest[0]] + rest[1..]
  }

  /** `parts.join(sep)`. */
  function Join(parts: seq<string>, sep: char): string {
    if |parts| == 0 then []
    else if |parts| == 1 then parts[0]
    else parts[0] + [sep] + Join(parts[1..], sep)
  }

  /** Splitting and joining back gives the original text. */
  lemma {:induction false} JoinSplit(s: string, sep: char)
    ensures Join(Split(s, sep), sep) == s
  {
    if s != [] {
      JoinSplit(s[1..], sep);
      var rest := Split(s[1..], sep);
      if s[0] == sep {
        assert ([[]] + rest)[1..] == rest;
      } else {
        var parts := [[s[0]] + rest[0]] + rest[1..];
        if |rest| == 1 {
          assert Join(parts, sep) == [s[0]] + rest[0];
        } else {
          assert parts[1..] == rest[1..];
          assert Join(rest, sep) == rest[0] + [sep] + Join(rest[1..], sep);
        }
      }
    }
  }

  /** Text free of the separator is one piece. */
  lemma {:induction false} SplitNoSeparator(s: string, sep: char)
    requires sep !in s
    ensures Split(s, sep) == [s]
  {
    if s != [] {
      assert sep !in s[1..];
      SplitNoSeparator(s[1..], sep);
      assert [s[0]] + s[1..] == s;
    }
  }

  /** A separator-free prefix followed by the separator is the first piece. */
  lemma {:induction false} SplitAfterPiece(a: string, sep: char, t: string)
    requires sep !in a
    ensures Split(a + [sep] + t, sep) == [a] + Split(t, sep)
  {
    if a == [] {
      assert (a + [sep] + t)[1..] == t;
    } else {
      assert (a + [sep] + t)[1..] == a[1..] + [sep] + t;
      assert sep !in a[1..];
      SplitAfterPiece(a[1..], sep, t);
      assert [a[0]] + a[1..] == a;
    }
  }

  /** Joining separator-free pieces and splitting again gives the pieces back. */
  lemma {:induction false} SplitJoin(parts: seq<string>, sep: char)
    requires |parts| >= 1
    requires forall i :: 0 <= i < |parts| ==> sep !in parts[i]
    ensures Split(Join(parts, sep), sep) == parts
  {
    if |parts| == 1 {
      SplitNoSeparator(parts[0], sep);
    } else {
      SplitJoin(parts[1..], sep);
      SplitAfterPiece(parts[0], sep, Join(parts[1..], sep));
      assert [parts[0]] + parts[1..] == parts;
    }
  }

  /** The first piece of a split is a prefix of the text (`email.split('@')[0]`). */
  lemma {:induction false} SplitFirstIsPrefix(s: string, sep: char)
    ensures StartsWith(s, Split(s, sep)[0])
  {
    if s != [] {
      SplitFirstIsPrefix(s[1..], sep);
    }
  }

  /** The first piece of a split ends at the first separator, or at the end. */
  lemma {:induction false} SplitFirstStops(s: string, sep: char)
    ensures |Split(s, sep)[0]| < |s| ==> s[|Split(s, sep)[0]|] == sep
  {
    if s != [] && s[0] != sep {
      SplitFirstStops(s[1..], sep);
    }
  }

  /** The first piece of a split: the separator-free prefix that ends at the
      first separator, and the whole text when the separator does not occur. */
  lemma FirstPiece(s: string, sep: char)
    ensures StartsWith(s, Split(s, sep)[0]) && sep !in Split(s, sep)[0]
    ensures |Split(s, sep)[0]| < |s| ==> s[|Split(s, sep)[0]|] == sep
    ensures sep !in s ==> Split(s, sep) == [s]
  {
    SplitFirstIsPrefix(s, sep);
    SplitFirstStops(s, sep);
    if sep !in s {
      SplitNoSeparator(s, sep);
    }
  }

  /** A separator-free piece `a` followed by the separator and more text. */
  lemma FirstPieceOf(a: string, sep: char, t: string)
    requires sep !in a
    ensures Split(a + [sep] + t, sep)[0] == a
    ensures Split(a, sep)[0] == a
  {
    SplitAfterPiece(a, sep, t);
    SplitNoSeparator(a, sep);
  }

  // ---------------------------------------------------------------------
  // integers as decimal text

  function DigitChar(d: nat): char
    requires d < 10
  {
    "0123456789"[d]
  }

  predicate IsDigit(c: char) {
    '0' <= c <= '9'
  }

  function DigitValue(c: char): nat
    requires IsDigit(c)
  {
    (c as int - '0' as int) as nat
  }

  /** The decimal digits of `n`, most significant first, no leading zero. */
  function NatToString(n: nat): (r: string)
    ensures |r| >= 1
    ensures forall i :: 0 <= i < |r| ==> IsDigit(r[i])
    ensures |r| > 1 ==> r[0] != '0'
  {
    if n < 10 then [DigitChar(n)] else NatToString(n / 10) + [DigitChar(n % 10)]
  }

  /** `String(i)` for an integer: a minus sign before the digits of a negative number. */
  function IntToString(i: int): (r: string)
    ensures forall k :: 0 <= k < |r| ==> IsDigit(r[k]) || (k == 0 && r[k] == '-')
  {
    if i < 0 then "-" + NatToString(-i) else NatToString(i)
  }

  /** The number a string of decimal digits denotes. */
  function DigitsValue(ds: string): nat
    requires forall i :: 0 <= i < |ds| ==> IsDigit(ds[i])
  {
    if ds == [] then 0 else DigitsValue(ds[..|ds| - 1]) * 10 + DigitValue(ds[|ds| - 1])
  }

  /** The longest prefix of `s` made of decimal digits. */
  function DigitPrefix(s: string): (r: string)
    ensures |r| <= |s| && r == s[..|r|]
    ensures forall i :: 0 <= i < |r| ==> IsDigit(r[i])
    ensures |r| < |s| ==> !IsDigit(s[|r|])
  {
    if s != [] && IsDigit(s[0]) then [s[0]] + DigitPrefix(s[1..]) else []
  }

  /** `parseInt(s)` in base ten: leading whitespace, an optional sign, then
      the longest run of digits; `None` stands for `NaN` (no digits). Without
      a radix JavaScript also reads a `0x` prefix as hexadecimal; the texts
      parsed here (decimal week numbers) never carry one, so that case is not
      modelled. */
  function ParseInt(s: string): Option<int> {
    ParseSigned(TrimStart(s))
  }

  function ParseSigned(t: string): Option<int> {
    if t != [] && t[0] == '-' then
      match ParseDigits(t[1..])
      case None => None
      case Some(v) => Some(-v)
    else if t != [] && t[0] == '+' then ParseDigits(t[1..])
    else ParseDigits(t)
  }

  function ParseDigits(t: string): Option<int> {
    var ds := DigitPrefix(t);
    if ds == [] then None else Some(DigitsValue(ds))
  }

  lemma {:induction false} DigitsOfNat(n: nat)
    ensures DigitsValue(NatToString(n)) == n
  {
    var s := NatToString(n);
    if n >= 10 {
      DigitsOfNat(n / 10);
      assert s[..|s| - 1] == NatToString(n / 10);
    }
  }

  lemma {:induction false} DigitPrefixOfDigits(s: string)
    requires forall i :: 0 <= i < |s| ==> IsDigit(s[i])
    ensures DigitPrefix(s) == s
  {
    if s != [] {
      DigitPrefixOfDigits(s[1..]);
    }
  }

  lemma ParseDigitsOfNat(n: nat)
    ensures ParseDigits(NatToString(n)) == Some(n)
  {
    DigitsOfNat(n);
    DigitPrefixOfDigits(NatToString(n));
  }

  /** `parseInt(String(i)) == i`: the decimal text of an integer reads back as it. */
  lemma ParseIntToString(i: int)
    ensures ParseInt(IntToString(i)) == Some(i)
  {
    if i < 0 {
      ParseNegative(-i);
    } else {
      ParseNonNegative(i);
    }
  }

  lemma ParseNonNegative(n: nat)
    ensures ParseInt(NatToString(n)) == Some(n as int)
  {
    ParseUnsigned(NatToString(n));
    ParseDigitsOfNat(n);
  }

  /** Text that starts with a digit is parsed as its digits, unsigned. */
  lemma ParseUnsigned(s: string)
    requires s != [] && IsDigit(s[0])
    ensures ParseInt(s) == ParseDigits(s)
  {
    assert !IsWhitespace(s[0]);
    assert TrimStart(s) == s;
    assert s[0] != '-' && s[0] != '+';
  }

  lemma ParseNegative(n: nat)
    ensures ParseInt("-" + NatToString(n)) == Some(-(n as int))
  {
    var s := "-" + NatToString(n);
    assert TrimStart(s) == s by {
      assert s[0] == '-';
    }
    assert s[1..] == NatToString(n);
    ParseDigitsOfNat(n);
  }
}

=== FILE: week_grid.dfy ===
/** The 52-week grid (src/components/WeekGrid.tsx): one tile per week, whose
    colour and icon follow the status of the first project for that week. */
module WeekGrid {

  import opened Common
  import opened Records
  import Schema

  const WeekCount := 52

  /** `Array.from({ length: 52 }, (_, i) => i + 1)`. */
  function Weeks(): (ws: seq<int>)
    ensures |ws| == WeekCount
    ensures forall i :: 0 <= i < |ws| ==> ws[i] == i + 1
    ensures forall i, j :: 0 <= i < j < |ws| ==> ws[i] < ws[j]
  {
    seq(WeekCount, i requires 0 <= i < WeekCount => i + 1)
  }

  /** Every week of the year has exactly one tile. */
  lemma WeeksCoverYear(w: int)
    ensures w in Weeks() <==> 1 <= w <= WeekCount
  {
    if 1 <= w <= WeekCount {
      assert Weeks()[w - 1] == w;
    }
  }

  /** `projects.find(p => p.week === week)`. */
  function WeekProject(ps: seq<Project>, week: int): (r: Option<Project>)
    ensures r.Some? ==> r.value in ps && r.value.week == week
    ensures r.None? <==> forall k :: 0 <= k < |ps| ==> ps[k].week != week
    ensures r.Some? ==> exists k :: 0 <= k < |ps| && ps[k] == r.value && forall t :: 0 <= t < k ==> ps[t].week != week
  {
    match FindFirst(ps, (p: Project) => p.week == week)
    case None => None
    case Some(k) => Some(ps[k])
  }

  /** `project?.status || 'Not Started'`. */
  function WeekStatus(ps: seq<Project>, week: int): (s: string)
    ensures WeekProject(ps, week).None? ==> s == NotStarted
    ensures WeekProject(ps, week).Some? && WeekProject(ps, week).value.status != "" ==> s == WeekProject(ps, week).value.status
    ensures s != ""
  {
    match WeekProject(ps, week)
    case None => NotStarted
    case Some(p) => OrElse(p.status, NotStarted)
  }

  datatype Colour = Green | Yellow | Grey

  function StatusColour(status: string): (c: Colour)
    ensures c == Green <==> status == Approved
    ensures c == Yellow <==> status == UnderReview
  {
    if status == Approved then Green
    else if status == UnderReview then Yellow
    else Grey
  }

  /** A status outside the enumeration is drawn like "Not Started". */
  lemma UnknownStatusColour(status: string)
    requires !Schema.IsStatus(status)
    ensures StatusColour(status) == StatusColour(NotStarted)
  {
  }

  datatype Icon = Check | Hourglass | ChevronUp | PlusSign

  /** `getStatusIcon`. */
  function StatusIcon(status: string, expandedWeek: Option<int>): (i: Icon)
    ensures status == Approved ==> i == Check
    ensures status == UnderReview ==> i == Hourglass
    ensures status == NotStarted ==> (i == PlusSign <==> expandedWeek.None?)
    ensures !Schema.IsStatus(status) ==> i == PlusSign
  {
    if status == Approved then Check
    else if status == UnderReview then Hourglass
    else if status == NotStarted then (if expandedWeek.None? then PlusSign else ChevronUp)
    else PlusSign
  }

  /** The icon a tile shows: for "Not Started" the chevron exactly when this
      week's form is open, otherwise `getStatusIcon`. */
  function TileIcon(status: string, expandedWeek: Option<int>, week: int): (i: Icon)
    ensures status == NotStarted ==> (i == ChevronUp <==> expandedWeek == Some(week))
    ensures status == NotStarted ==> (i == PlusSign <==> expandedWeek != Some(week))
    ensures status != NotStarted ==> i == StatusIcon(status, expandedWeek)
  {
    if status == NotStarted then (if expandedWeek == Some(week) then ChevronUp else PlusSign)
    else StatusIcon(status, expandedWeek)
  }

  /** Everything a tile shows. */
  datatype Tile = Tile(week: int, colour: Colour, icon: Icon, title: Option<string>, deleteButton: bool)

  function RenderTile(ps: seq<Project>, week: int, expandedWeek: Option<int>): (t: Tile)
    ensures t.week == week
    ensures t.title.Some? <==> WeekProject(ps, week).Some?
    ensures t.deleteButton <==> WeekProject(ps, week).Some?
    ensures t.title.Some? ==> t.title.value == WeekProject(ps, week).value.title
    ensures WeekProject(ps, week).None? ==> (
      && t.colour == Grey
      && (t.icon == ChevronUp <==> expandedWeek == Some(week)))
  {
    var status := WeekStatus(ps, week);
    var p := WeekProject(ps, week);
    Tile(week, StatusColour(status), TileIcon(status, expandedWeek, week),
         if p.Some? then Some(p.value.title) else None, p.Some?)
  }

  /** The whole grid: one tile per week, in order. */
  function RenderGrid(ps: seq<Project>, expandedWeek: Option<int>): (tiles: seq<Tile>)
    ensures |tiles| == WeekCount
    ensures forall i :: 0 <= i < |tiles| ==> tiles[i] == RenderTile(ps, i + 1, expandedWeek)
  {
    seq(WeekCount, i requires 0 <= i < WeekCount => RenderTile(ps, i + 1, expandedWeek))
  }

  /** `handleDelete`: the week goes to `onDeleteProject` only when the page
      passed one. */
  function DeleteClick(hasHandler: bool, week: int): (call: Option<int>)
    ensures call.Some? <==> hasHandler
    ensures call.Some? ==> call.value == week
  {
    if hasHandler then Some(week) else None
  }
}
